=== FILE: README.md ===
# PayU backend for django-getpaid, modelled in Dafny

The package connects django-getpaid payments to the PayU REST API. It has two
parts. `Client` talks to the API: it keeps an OAuth token and renews it when
needed, and builds the requests for creating, refunding, cancelling,
capturing and querying orders. It also converts money amounts, sending
minor units (cents) and reading them back as decimals. `PaymentProcessor`
drives a payment record. It signs POST form data, prepares a transaction
(REST redirect or POST form), captures and releases locked funds, polls
the order status, and checks and dispatches the signed notifications PayU
pushes to the shop.

The model is split into these modules:

- `Wrappers`: Option/Result.
- `Json`: decoded JSON values. A dict is an insertion-ordered list of pairs, read and written with Python's semantics.
- `Text`: digit strings, `split`/`join`, ASCII case mapping and string order.
- `Units`: `_centify` and `_normalize`.
- `Signature`: the form signer and the notification signature check.
- `Gateway`: the `Client` class and the requests it builds.
- `PaymentFsm`: the payment record and its transitions.
- `Reconcile`: what a polled status or a pushed notification does to the payment.
- `Processor`: the `PaymentProcessor` class.

Things the code does not compute itself come in as parameters:

- HTTP responses;
- the UTF-8 decoding of a notification body, absent when the bytes are not UTF-8;
- the decoded JSON body;
- the current time, in whole seconds;
- the hash functions, as a `Digest` function;
- the payment's state machine, as a `Machine` value.

Each HTTP request that would be sent is returned as a value.

## Model

| member | source | states |
|---|---|---|
| Json.Get | getpaid_payu/processor.py:106 | a dict lookup finds a value exactly when the key is among the dict's keys |
| Json.GetSet | getpaid_payu/processor.py:126 | after `d[k] = v`, `k` reads `v` and every other key reads what it read before |
| Json.KeysSet | getpaid_payu/processor.py:126 | assigning an existing key keeps the key order; assigning a new key appends it |
| Json.SetKeepsDistinct | getpaid_payu/processor.py:126 | assignment never creates a duplicate key |
| Json.GetUpdate | getpaid_payu/client.py:87-89 | after `dict.update(kw)`, keys of `kw` read their `kw` value and other keys read the old one |
| Json.GetAppend | getpaid_payu/client.py:87-89 | looking up a key in a concatenation finds the first part's binding before the second's |
| Text.DigitsOfNatToString | getpaid_payu/client.py:101 | the decimal digits written for a natural number read back as that number |
| Text.ParseIntOfIntToString | getpaid_payu/client.py:101 | `int(str(i)) == i` for every integer, negatives included |
| Text.ParseDecimalOfIntToString | getpaid_payu/client.py:118 | `Decimal(str(i))` is `i` for every integer |
| Text.SplitThenJoin | getpaid_payu/processor.py:237 | joining the pieces of a split gives back the string, and no piece contains the separator |
| Text.JoinThenSplit | getpaid_payu/processor.py:237 | splitting a join of separator-free pieces gives back those pieces |
| Text.StrLeTotal | getpaid_payu/processor.py:89 | Python string order compares any two strings |
| Text.StrLeAntisymmetric | getpaid_payu/processor.py:89 | two strings ordered both ways are equal |
| Text.StrLeTransitive | getpaid_payu/processor.py:89 | string order is transitive |
| Units.Trunc | getpaid_payu/client.py:101 | `int()` of a number truncates toward zero: the result is within 1 of the input, on the side of zero |
| Units.CentsLeaf | getpaid_payu/client.py:101 | a monetary value converts exactly when `int(v * 100)` succeeds, and the stored string reads back as that integer |
| Units.UnitsLeaf | getpaid_payu/client.py:118 | a number under a monetary key becomes that number divided by 100, `True`/`False` become 0.01/0, a string converts exactly when it parses as a decimal and then to its value divided by 100; null, a list or a dict is reported as an error |
| Units.CentifyMeaning | getpaid_payu/client.py:91-106 | `_centify` succeeds with `w` exactly when `w` has the shape of the input, every value under a monetary key at any depth is converted to cents, and every other value is kept |
| Units.NormalizeMeaning | getpaid_payu/client.py:108-123 | the same for `_normalize`, converting cents back to units |
| Units.WalkEntriesGet | getpaid_payu/client.py:96-102 | after a dict is converted, each key reads the converted value of its original binding |
| Units.WalkEntriesSome | getpaid_payu/client.py:96-102 | converting a dict fails exactly when one of its entries fails |
| Units.WalkDefined | getpaid_payu/client.py:91-106 | the conversion succeeds whenever every monetary value is one the leaf converts |
| Units.WalkAgree | getpaid_payu/client.py:91-106 | two leaf conversions that agree on every monetary value give the same walk |
| Units.WalkThen | getpaid_payu/client.py:91-123 | normalizing a centified value is one walk with the two leaf conversions composed |
| Units.WalkIdentity | getpaid_payu/client.py:91-106 | a walk with an identity leaf returns its input |
| Units.LeafRoundTrip | getpaid_payu/client.py:101-118 | a number converted to cents and back is the number truncated to whole cents; a whole number of cents comes back unchanged |
| Units.CentTrunc | getpaid_payu/client.py:101 | truncating a whole number of cents loses nothing |
| Units.CentifyThenNormalize | getpaid_payu/client.py:91-123 | when every amount is a number, centify then normalize succeeds and truncates each amount to whole cents |
| Units.RoundTrip | getpaid_payu/client.py:91-123 | when every amount is a whole number of cents, `_normalize(_centify(v)) == v` |
| Units.AmountsWeaken | getpaid_payu/client.py:91-106 | a property of every monetary value implies any weaker one |
| Gateway.AuthorizeOutcome | getpaid_payu/client.py:67-84 | authorization succeeds exactly on a 200 carrying a string token type, a string access token and an expiry; the token is then the capitalised type, a space and the access token, expiring `expires_in` seconds from now; any other status raises `CredentialsError` with the response and leaves the session |
| Gateway.FreshSessionWindow | getpaid_payu/client.py:38-45 | a freshly authorized session is renewed only once more than five seconds have passed after its expiry |
| Gateway.GuardAuthorizesOnlyWhenExpired | getpaid_payu/client.py:38-45 | `ensure_auth` sends the credentials request exactly when the token expired more than five seconds ago; otherwise the client is untouched |
| Gateway.HeadersLookup | getpaid_payu/client.py:86-89 | headers carry the token and the JSON content type unless a keyword overrides them; every keyword is a header |
| Gateway.ProductLineConvert | getpaid_payu/client.py:161-163 | the default product line converts exactly when its unit price does, and only the unit price changes |
| Gateway.DefaultProductsConvert | getpaid_payu/client.py:161-163 | the default product list converts exactly when the amount does, to one line priced at the converted amount |
| Gateway.OrderBaseLookup | getpaid_payu/client.py:154-164 | the base order dict holds exactly its seven fields: the order id, the customer IP (127.0.0.1 by default), the POS id as a string, the description ("Payment order" by default), the upper-cased currency, the total amount and the products |
| Gateway.OrderExtras | getpaid_payu/client.py:167-178 | the notify URL, continue URL and buyer are added only when given; the invoice settings are always added; every other key is unchanged |
| Gateway.OrderBaseWalk | getpaid_payu/client.py:153-165 | the order literal converts exactly when the order id, the amount and the products (given or default) convert |
| Gateway.OrderBodySome | getpaid_payu/client.py:153-181 | the order body can be built exactly when the amount, the order id and any given products convert |
| Gateway.OrderBodyGet | getpaid_payu/client.py:153-181 | each key of the order body is the keyword argument when one overrides it, and otherwise the converted field |
| Gateway.OrderDefaults | getpaid_payu/client.py:154-159 | customer IP, POS id, description, currency and order id take their given values or their defaults |
| Gateway.OrderAmountsWalk | getpaid_payu/client.py:160-165 | the total is the converted amount; the products are the converted list, or one line at the converted amount when none are given |
| Gateway.OrderAmounts | getpaid_payu/client.py:160-165 | the total is the amount in minor units as an integer string, and without products one "Total order" line of quantity 1 at that total is sent |
| Gateway.OrderOptionals | getpaid_payu/client.py:167-178 | notify URL, continue URL and buyer appear only when given and are sent unconverted; invoices are always disabled |
| Gateway.RefundDataWalk | getpaid_payu/client.py:204-209 | the refund data converts exactly when no amount is given or the amount converts, and only the amount changes |
| Gateway.RefundBodyFields | getpaid_payu/client.py:195-209 | the refund body names the order and the description ("Refund" by default); it carries the amount in minor units only when one is given |
| Gateway.Classify | getpaid_payu/client.py:189-247 | an operation succeeds exactly on an accepted status with a convertible body, whose value is the body in major units; a rejected status raises the operation's own failure carrying the response |
| Gateway.OutcomeTable | getpaid_payu/client.py:189-247 | only order creation accepts 201 and 302; the other operations accept only 200; each operation rejects with its own exception |
| Gateway.PerformOrder | getpaid_payu/client.py:125-247 | every API call first runs the auth guard, then sends its one request with the guard's token; that response becomes the last response and decides the result; the session changes only in the guard |
| Gateway.Client.Init | getpaid_payu/client.py:52-65 | a new client stores its configuration and has no response yet |
| Gateway.Client.Authorize | getpaid_payu/client.py:67-84 | `_authorize` records the response and updates the session as `AuthorizeOutcome` states |
| Gateway.Client.EnsureAuth | getpaid_payu/client.py:38-45 | the new state, the requests sent and the error are those of the guard |
| Gateway.Client.Send | getpaid_payu/client.py:186-190 | the response becomes the last response, and the result is its classification |
| Gateway.Client.NewOrder | getpaid_payu/client.py:125-193 | the new client state, the requests sent and the result are those of the order-creation call: POST to the orders endpoint with the order body |
| Gateway.Client.Refund | getpaid_payu/client.py:195-217 | the same for a refund: POST to the order's refunds endpoint with the refund body |
| Gateway.Client.CancelOrder | getpaid_payu/client.py:219-227 | the same for a cancellation: DELETE on the order |
| Gateway.Client.Capture | getpaid_payu/client.py:229-239 | the same for a capture: PUT on the order's status, with no body |
| Gateway.Client.GetOrderInfo | getpaid_payu/client.py:241-247 | the same for an order query: GET on the order |
| Gateway.Connect | getpaid_payu/client.py:52-65 | constructing a client succeeds exactly when the first authorization does, and the client then holds that session; otherwise the authorization error is raised |
| PaymentFsm.ValidTraceSnoc | getpaid_payu/processor.py:252-294 | extending a run of allowed transitions by one more allowed transition gives a run of allowed transitions |
| PaymentFsm.Payment.constructor | getpaid_payu/processor.py:222-302 | a payment starts with its state, external id and locked amount, with nothing saved and nothing run |
| PaymentFsm.Payment.Fire | getpaid_payu/processor.py:258-292 | a transition runs exactly when `can_proceed` allows it, and moves the state and the history; otherwise nothing changes |
| PaymentFsm.Payment.Save | getpaid_payu/processor.py:293 | `save()` records the current state and external id |
| Reconcile.GetOrNull | getpaid_payu/processor.py:253-254 | `.get(key)` raises exactly on a non-dict, and otherwise gives the bound value or null |
| Reconcile.First | getpaid_payu/processor.py:307 | `[0]` succeeds exactly on a non-empty list, giving its first item, or a non-empty string, giving its first character; an empty list or string raises `IndexError`, a dict `KeyError`, anything else `TypeError` |
| Reconcile.OrderStatusOf | getpaid_payu/processor.py:307-309 | the order status is read exactly from a dict whose "orders" is a non-empty list starting with a dict, and it is that first order's "status", or null when the order has none |
| Reconcile.PollCallback | getpaid_payu/processor.py:309-319 | NEW and PENDING poll as `confirm_prepared`, CANCELED as `fail`, COMPLETED as `confirm_payment` and WAITING_FOR_CONFIRMATION as `confirm_lock`; any other status names no callback |
| Reconcile.Hundredth | getpaid_payu/processor.py:285 | a refund amount divides by 100 when it is a number, a boolean counts as 1 or 0 cents, and anything else raises `TypeError` |
| Reconcile.OneStep | getpaid_payu/processor.py:252-292 | one allowed transition is a run of allowed transitions |
| Reconcile.TwoSteps | getpaid_payu/processor.py:255-287 | two allowed transitions in a row are a run of allowed transitions |
| Reconcile.GuardedSound | getpaid_payu/processor.py:255-280 | a guarded transition, optionally followed by a guarded `mark_as_paid`, only runs allowed transitions |
| Reconcile.UnguardedSound | getpaid_payu/processor.py:282-292 | an unguarded refund transition either raises and changes nothing, or runs allowed transitions |
| Reconcile.OrderRunSound | getpaid_payu/processor.py:252-280 | every order notification only runs allowed transitions; when it raises it has run nothing; it runs at most `confirm_payment` then `mark_as_paid` |
| Reconcile.RefundRunSound | getpaid_payu/processor.py:281-292 | the same for every refund notification, with `confirm_refund` then `mark_as_refunded` or `cancel_refund` then `mark_as_paid` |
| Reconcile.PayloadRunSound | getpaid_payu/processor.py:251-292 | the same for every notification body whatever its shape |
| Reconcile.PushAgreesWithPoll | getpaid_payu/processor.py:252-280 | a pushed order status runs, as its first transition, the callback the same status names when polled, whenever the payment allows it |
| Reconcile.CompletedFired | getpaid_payu/processor.py:255-260 | a COMPLETED notification runs nothing (when `confirm_payment` is not allowed), `confirm_payment`, or `confirm_payment` then `mark_as_paid` |
| Reconcile.FinalizedRefundTwice | getpaid_payu/processor.py:284-288 | when a FINALIZED refund ran `confirm_refund` and `mark_as_refunded`, delivering it again raises `TransitionNotAllowed` and changes nothing, provided `confirm_refund` is never allowed right after `mark_as_refunded` |
| Reconcile.CompletedIdempotent | getpaid_payu/processor.py:255-260 | delivering the same COMPLETED notification twice marks the payment paid at most once, provided `confirm_payment` is never allowed right after `mark_as_paid` |
| Signature.ByHashlibName | getpaid_payu/processor.py:88 | a name resolves to the hash constructor of that name, and every constructor's name resolves |
| Signature.ResolveAlgorithm | getpaid_payu/processor.py:88 | an algorithm setting resolves exactly when, without dashes and lower-cased, it names one of the twelve modelled fixed-length `hashlib` constructors |
| Signature.UpperKeepsDash | getpaid_payu/processor.py:87-88 | upper-casing commutes with removing dashes |
| Signature.LowerOfUpper | getpaid_payu/processor.py:87-88 | lower-casing an upper-cased name is lower-casing the name |
| Signature.ResolveUpper | getpaid_payu/processor.py:87-88 | upper-casing the setting first does not change which algorithm it resolves to |
| Signature.HexDigest | getpaid_payu/processor.py:91 | a hex digest has two lower-case hex digits per byte |
| Signature.ParsePairMeaning | getpaid_payu/processor.py:237 | a header piece parses to `(k, v)` exactly when it is `k=v` with no other `=` |
| Signature.ParsePairOf | getpaid_payu/processor.py:237 | a piece written as `k=v` parses back to `(k, v)` |
| Signature.SplitSignatureField | getpaid_payu/processor.py:236 | the written signature value splits on `;` into its three pieces |
| Signature.PairsOfThree | getpaid_payu/processor.py:237 | three well-formed pieces with distinct keys parse to the dict of those three pairs |
| Signature.ParseSignatureField | getpaid_payu/processor.py:94 | the signature value the form signer writes parses into signature, algorithm and sender |
| Signature.CheckSignature | getpaid_payu/processor.py:224-249 | no signature exactly when the header is empty; malformed exactly when a non-empty header does not parse; otherwise the announced algorithm, or MD5 when none is announced, is resolved; an unknown algorithm exactly when it does not resolve; then verified exactly when the signature piece is the hex digest, under that algorithm, of the body followed by the second key, and a mismatch otherwise |
| Signature.CallbackDefaultIsMd5 | getpaid_payu/processor.py:238 | the algorithm a notification falls back to resolves to MD5 |
| Signature.UnannouncedAlgorithmIsMd5 | getpaid_payu/processor.py:238-249 | a header with no algorithm piece verifies exactly when its signature is the MD5 digest of the body followed by the key, and is a mismatch otherwise |
| Signature.SignatureOnlyVerifies | getpaid_payu/processor.py:235-249 | a header made of the signature piece alone, carrying the MD5 digest, verifies |
| Signature.SignThenVerify | getpaid_payu/processor.py:238-249 | a body signed with the second key, in the header format the form signer writes, always verifies |
| Signature.MissingSignatureRejected | getpaid_payu/processor.py:243-249 | a header without a signature piece never verifies |
| Signature.PercentEncode | getpaid_payu/processor.py:89 | percent-encoding writes three characters per byte, all from the quoted alphabet |
| Signature.PercentEncodeEscapes | getpaid_payu/processor.py:89 | byte `i` becomes `%` followed by its two upper-case hex digits, at positions `3i` to `3i+2` |
| Signature.QuotePlus | getpaid_payu/processor.py:89 | URL-quoting leaves only unreserved characters, `+` and `%` |
| Signature.QuoteUnreserved | getpaid_payu/processor.py:89 | a string of unreserved characters quotes to itself |
| Signature.UrlEncode | getpaid_payu/processor.py:89 | URL-encoded form data is ASCII |
| Signature.Insert | getpaid_payu/processor.py:89 | insertion adds exactly the one pair |
| Signature.InsertSorted | getpaid_payu/processor.py:89 | insertion into a key-sorted list keeps it sorted |
| Signature.InsertDistinct | getpaid_payu/processor.py:89 | inserting a new key keeps the keys distinct |
| Signature.SortByKey | getpaid_payu/processor.py:89 | `sorted(items)` is a key-sorted permutation of the items with the same keys |
| Signature.SortedUnique | getpaid_payu/processor.py:89 | two key-sorted permutations of a list with distinct keys are equal |
| Signature.SigningInput | getpaid_payu/processor.py:89-90 | the signing input can be encoded as ASCII exactly when the second key is ASCII |
| Signature.SigningOrderIndependent | getpaid_payu/processor.py:89-90 | the signing input depends on the set of form fields, not on their insertion order |
| Signature.FormSignature | getpaid_payu/processor.py:85-94 | signing fails exactly on an unknown algorithm or a non-ASCII key; otherwise the value stored is exactly `signature=<hex digest of the signing input>;algorithm=<upper-cased algorithm>;sender=<POS id>`, and it parses back into those three pieces |
| Processor.ValidateConfig | getpaid_payu/processor.py:51-68 | the configuration is rejected exactly when one of pos_id, second_key, oauth_id, oauth_secret is missing or falsy, and the key reported is the first such |
| Processor.BuyerFieldsDistinct | getpaid_payu/processor.py:109-123 | the buyer fields written are pairwise distinct, and "email" is not among the optional ones |
| Processor.BuyerStep | getpaid_payu/processor.py:124-126 | each loop step copies one optional field when its source value is truthy and keeps the fields copied so far |
| Processor.SetKeysWithin | getpaid_payu/processor.py:126 | assignment keeps a dict's keys within a set that holds the new key |
| Processor.GetBuyerInfo | getpaid_payu/processor.py:98-135 | there is no buyer exactly when the email is falsy; otherwise the email is copied and each optional field holds its source value when truthy and is absent otherwise |
| Processor.HeaderValue | getpaid_payu/processor.py:224-226 | a header is found exactly when some header name matches ignoring case, and the first match is returned |
| Processor.SignedNotificationVerified | getpaid_payu/processor.py:224-249 | a correctly signed notification verifies whether the signature comes in the direct or the proxied header |
| Processor.LockOf | getpaid_payu/processor.py:326-335 | locking succeeds exactly when the order was created, `confirm_prepared` is allowed and the order id is a string (the last condition is the model's, see below); a client failure is passed on |
| Processor.StatusField | getpaid_payu/processor.py:341-350 | `response.get("status", {}).get(key)` raises `AttributeError` exactly when the response or its status is not a dict, and otherwise gives the value bound to `key` in the status, or null when it is unbound or there is no status |
| Processor.FormData.constructor | getpaid_payu/processor.py:84 | form data starts with the given fields, each key at most once |
| Processor.FormSignatureOrderIndependent | getpaid_payu/processor.py:84-95 | the form signature depends only on the set of form fields |
| Processor.PaymentProcessor.constructor | getpaid_payu/processor.py:34-47 | the processor holds its payment, client, settings and hash functions |
| Processor.PaymentProcessor.PrepareFormData | getpaid_payu/processor.py:84-95 | the form keeps each key at most once; on success it gains (or replaces) only its signature field, with the value `FormSignature` describes; on failure the form is unchanged |
| Processor.PaymentProcessor.FetchPaymentStatus | getpaid_payu/processor.py:304-320 | the status poll queries the payment's order, and reports the raw response and the callback its status names; a failed query or a malformed answer raises |
| Processor.PaymentProcessor.PrepareLock | getpaid_payu/processor.py:326-335 | a successful lock runs `confirm_prepared` and stores the order id as the external id; on failure the payment is unchanged |
| Processor.PaymentProcessor.PrepareTransaction | getpaid_payu/processor.py:192-220 | REST: lock, save and redirect to the payment URL; a lock failure fails the payment, saves and redirects to the failure URL; other methods leave the payment alone; the payment is saved exactly when a redirect is returned |
| Processor.PaymentProcessor.Charge | getpaid_payu/processor.py:337-346 | the capture reports the response and its status description, and succeeds exactly when the status code is SUCCESS |
| Processor.PaymentProcessor.ReleaseLock | getpaid_payu/processor.py:348-352 | cancelling returns the locked amount exactly when the status code is SUCCESS |
| Processor.PaymentProcessor.HandleOrder | getpaid_payu/processor.py:252-280 | the payment's state and history after an order notification are those of the sound order dispatch |
| Processor.PaymentProcessor.HandleRefund | getpaid_payu/processor.py:281-292 | the same for a refund notification |
| Processor.PaymentProcessor.Dispatch | getpaid_payu/processor.py:251-292 | the same for any verified notification body |
| Processor.PaymentProcessor.HandlePaywallCallback | getpaid_payu/processor.py:222-302 | no signature answers 400, or raises when the body is not UTF-8; a malformed header or an unknown algorithm raises; otherwise a body that is not UTF-8 raises; a wrong signature answers 422; a verified body is dispatched and then saved, answering 200 OK; the payment is saved exactly when the answer is 200 OK |

## Left out

- Floating point: JSON numbers and `Decimal` are exact reals. Binary rounding of `v * 100` is not modelled.
- `int()` on a string reads an optionally signed run of ASCII digits. Whitespace, underscores and non-ASCII digits are not modelled. `Decimal()` is limited in the same way, with an optional fraction.
- Case mapping (`upper`, `lower`, `capitalize`) is ASCII-only.
- Django compares header names case-insensitively; this is modelled with ASCII lower-casing.
- JSON decoding of response and notification bodies is not modelled. The decoded value, or its absence, is an input.
- HTTP transport is not modelled. Each request is returned as a value, and its response is an input.
- `urljoin` is not modelled. Paths are kept relative to the API base URL.
- The clock is an input in whole seconds. Sub-second expiry is not modelled.
- Hash functions are an input. Nothing about collision resistance is assumed or proved.
- `views.py` is not part of this model.
- `get_paywall_context` is not modelled; its result comes in as an input. `get_return_url`, `get_client_params` and the adapter lookup of the user info are not modelled either.
- `Client.get_shop_info`, `get_order_transactions` and `get_paymethods` are not part of this model.
- The POST branch of `prepare_transaction` is reduced to a marker (`PostForm`). The template response and the form class are not modelled.
- `@atomic`, concurrency and logging are not modelled.
- Status values (`OrderStatus`, `RefundStatus`, `ResponseStatus`, `BackendMethod`) are assumed to be string-valued enums that compare equal to their values.
- Form values are strings. The `str()` of non-string form values is not modelled.
- Gateway.AuthorizeOutcome: a non-string `access_token` is treated as a data error. Python would format it with `str()` and succeed. A non-string `token_type` is also a data error; Python raises `AttributeError` at `.capitalize()`.
- Signature.ResolveAlgorithm: only the twelve fixed-length `hashlib` constructors resolve. `getattr` also finds `shake_128`, `shake_256` and attributes that are not digests, such as `new`; for those the model reports `AlgorithmError` before the body is decoded, where Python would go on to decode the body and then raise `TypeError` when calling the attribute or at `hexdigest()`.
- Units.UnitsLeaf: `Decimal()` also accepts a `(sign, digits, exponent)` tuple or list; the model reports such a value as an error. The division by 100 is exact; the 28-digit rounding of the decimal context is not modelled.
- Processor.LockOf: treats a returned `orderId` that is not a string as the failure `OrderIdNotString`. Python stores any value as the external id.
- Processor.PaymentProcessor.PrepareLock: a non-string order id is reported as `OrderIdNotString`. Python would store it as the external id anyway.
- Processor.ValidateConfig: reports the first missing key. Python would raise `NameError`, because `ImproperlyConfigured` is not imported.
- Where the code differs from its description, the model follows the code:
  - re-authorization happens only five seconds after expiry;
  - a FINALIZED refund runs `mark_as_refunded`;
  - the buyer's first name is read from `firstName`, while the other fields use their own names;
  - `capture` builds a status body that it never sends.

=== FILE: client.dfy ===
/** The PayU REST client (`getpaid_payu/client.py`): an OAuth
    client-credentials session that is refreshed lazily before every
    operation, the request each operation sends and how its response is
    classified. HTTP is not performed: every response is an input, every
    request is an output, and the clock is an integer `now` in seconds. */
module Gateway {
  import opened Wrappers
  import opened Json
  import opened Text
  import opened Units

  datatype HttpResponse = HttpResponse(status: int, body: JVal)

  datatype Verb = GET | POST | PUT | DELETE

  /** A request as sent: `path` is what `urljoin` puts after the gateway's
      host (every path the client uses is absolute). */
  datatype HttpRequest = HttpRequest(verb: Verb, path: string, headers: Dict, body: Option<JVal>)

  /** The exceptions the client raises. `CancelFailure` is the plain
      `GetPaidException` of `cancel_order`; `DataError` stands for the Python
      errors (`TypeError`, `ValueError`, `KeyError`) raised while reading or
      converting data. */
  datatype ClientError =
    | CredentialsError(raw: HttpResponse)
    | LockFailure(raw: HttpResponse)
    | RefundFailure(raw: HttpResponse)
    | CancelFailure(raw: HttpResponse)
    | ChargeFailure(raw: HttpResponse)
    | CommunicationError(raw: HttpResponse)
    | DataError

  datatype ClientConfig = ClientConfig(apiUrl: string, posId: int, secondKey: string, oauthId: int, oauthSecret: string)

  datatype Session = Session(token: string, expiration: int)

  datatype ClientState = ClientState(session: Session, lastResponse: Option<HttpResponse>)

  datatype Operation = NewOrder | Refund | CancelOrder | Capture | GetOrderInfo

  const AuthorizePath := "/pl/standard/user/oauth/authorize"
  const OrdersPath := "/api/v2_1/orders"

  function OrderPath(orderId: string): string { OrdersPath + "/" + orderId }

  /* ---------------------------------------------------------------------
     Session: `_authorize` and `ensure_auth`
     --------------------------------------------------------------------- */

  /** The client-credentials request `_authorize` posts. */
  function AuthRequest(config: ClientConfig): HttpRequest {
    HttpRequest(POST, AuthorizePath, [],
      Some(JMap([("grant_type", JStr("client_credentials")),
                 ("client_id", JNum(config.oauthId as real)),
                 ("client_secret", JStr(config.oauthSecret))])))
  }

  /** `f"{data['token_type'].capitalize()} {data['access_token']}"`. */
  function TokenOf(body: JVal): Option<string> {
    match (Field(body, "token_type"), Field(body, "access_token"))
    case (Some(JStr(kind)), Some(JStr(access))) => Some(Capitalize(kind) + " " + access)
    case _ => None
  }

  /** `int(data["expires_in"])`. */
  function ExpiresIn(body: JVal): Option<int> {
    match Field(body, "expires_in")
    case Some(JNum(r)) => Some(Trunc(r))
    case Some(JStr(s)) => ParseInt(s)
    case Some(JBool(b)) => Some(if b then 1 else 0)
    case _ => None
  }

  /** `_authorize`'s effect on the session, and the error it raises. The
      token is assigned before `expires_in` is read, so a response whose
      `expires_in` cannot be read changes the token only. */
  function Authorized(s: Session, now: int, resp: HttpResponse): (Session, Option<ClientError>) {
    if resp.status != 200 then (s, Some(CredentialsError(resp)))
    else
      match TokenOf(resp.body)
      case None => (s, Some(DataError))
      case Some(t) =>
        match ExpiresIn(resp.body)
        case None => (Session(t, s.expiration), Some(DataError))
        case Some(e) => (Session(t, now + e), None)
  }

  /** `ensure_auth`'s test: the token is refreshed only once its expiry
      lies more than five seconds in the past. */
  predicate NeedsAuth(expiration: int, now: int) {
    expiration < now - 5
  }

  /** The `ensure_auth` step in front of an operation: the new state, the
      requests sent and the error raised. */
  function Guard(config: ClientConfig, st: ClientState, now: int, auth: HttpResponse)
    : (ClientState, seq<HttpRequest>, Option<ClientError>)
  {
    if NeedsAuth(st.session.expiration, now) then
      var (s, err) := Authorized(st.session, now, auth);
      (ClientState(s, Some(auth)), [AuthRequest(config)], err)
    else (st, [], None)
  }

  /** `_authorize` succeeds exactly on a 200 response carrying a string
      `token_type`, a string `access_token` and a readable `expires_in`; the
      token is then the capitalised type, a space and the access token, and
      it expires `expires_in` seconds from now. Any other status raises
      `CredentialsError` with the response and leaves the session alone. */
  lemma AuthorizeOutcome(s: Session, now: int, resp: HttpResponse)
    ensures var (s', err) := Authorized(s, now, resp);
      && (err == None <==> resp.status == 200 && TokenOf(resp.body).Some? && ExpiresIn(resp.body).Some?)
      && (err == None ==>
            exists kind, access ::
              && Field(resp.body, "token_type") == Some(JStr(kind))
              && Field(resp.body, "access_token") == Some(JStr(access))
              && s' == Session(Capitalize(kind) + " " + access, now + ExpiresIn(resp.body).value))
      && (resp.status != 200 ==> s' == s && err == Some(CredentialsError(resp)))
      && (err.Some? ==> s'.expiration == s.expiration)
  {
    if resp.status == 200 && TokenOf(resp.body).Some? && ExpiresIn(resp.body).Some? {
      var tokenType, accessToken := Field(resp.body, "token_type"), Field(resp.body, "access_token");
      assert tokenType.Some? && tokenType.value.JStr? && accessToken.Some? && accessToken.value.JStr?;
      var kind, access := tokenType.value.s, accessToken.value.s;
      assert TokenOf(resp.body) == Some(Capitalize(kind) + " " + access);
      assert Authorized(s, now, resp).0 == Session(Capitalize(kind) + " " + access, now + ExpiresIn(resp.body).value);
    }
  }

  /** A session that was just refreshed with a non-negative lifetime is not
      refreshed again until five seconds after it expires. */
  lemma FreshSessionWindow(s: Session, now: int, resp: HttpResponse, later: int)
    requires Authorized(s, now, resp).1 == None
    requires now <= later
    ensures NeedsAuth(Authorized(s, now, resp).0.expiration, later)
        <==> later > now + ExpiresIn(resp.body).value + 5
  {
  }

  /** The guard re-authorizes (sends the credentials request first) exactly
      when the token has expired by more than five seconds; otherwise the
      session and the last response are untouched. */
  lemma GuardAuthorizesOnlyWhenExpired(config: ClientConfig, st: ClientState, now: int, auth: HttpResponse)
    ensures var (st', sent, err) := Guard(config, st, now, auth);
      && (sent == [AuthRequest(config)] <==> NeedsAuth(st.session.expiration, now))
      && (sent == [] <==> !NeedsAuth(st.session.expiration, now))
      && (!NeedsAuth(st.session.expiration, now) ==> st' == st && err == None)
      && (NeedsAuth(st.session.expiration, now) ==> st'.lastResponse == Some(auth))
  {
  }

  /* ---------------------------------------------------------------------
     Requests
     --------------------------------------------------------------------- */

  /** `_headers(**kwargs)`. */
  function Headers(token: string, kwargs: Dict): Dict {
    Update([("Authorization", JStr(token)), ("Content-Type", JStr("application/json"))], kwargs)
  }

  /** `kwargs` overrides a key when it has it. */
  function Override(kwargs: Dict, k: string, v: Option<JVal>): Option<JVal> {
    if k in Keys(kwargs) then Get(kwargs, k) else v
  }

  /** The headers carry the token and the JSON content type unless a
      keyword argument overrides them; every keyword argument is a header. */
  lemma HeadersLookup(token: string, kwargs: Dict, k: string)
    requires DistinctKeys(kwargs)
    ensures Get(Headers(token, kwargs), k)
         == Override(kwargs, k,
              if k == "Authorization" then Some(JStr(token))
              else if k == "Content-Type" then Some(JStr("application/json"))
              else None)
  {
    GetUpdate([("Authorization", JStr(token)), ("Content-Type", JStr("application/json"))], kwargs, k);
  }

  /** The arguments of `new_order`; an empty string stands for a string
      argument that is `None` or empty (the code only tests truthiness). */
  datatype OrderArgs = OrderArgs(
    amount: JVal, currency: string, orderId: JVal, description: string,
    customerIp: string, buyer: JVal, products: JVal, notifyUrl: string, continueUrl: string)

  const InvoiceSettings := JMap([("invoiceDisabled", JStr("true"))])

  /** The single product line `new_order` sends when no products are given. */
  function ProductLine(price: JVal): Dict {
    [("name", JStr("Total order")), ("unitPrice", price), ("quantity", JNum(1.0))]
  }

  function DefaultProducts(amount: JVal): JVal {
    JList([JMap(ProductLine(amount))])
  }

  /** The dict literal `new_order` hands to `_centify`. */
  function OrderBase(posId: int, a: OrderArgs): Dict {
    [ ("extOrderId", a.orderId),
      ("customerIp", JStr(if a.customerIp != "" then a.customerIp else "127.0.0.1")),
      ("merchantPosId", JStr(IntToString(posId))),
      ("description", JStr(if a.description != "" then a.description else "Payment order")),
      ("currencyCode", JStr(Upper(a.currency))),
      ("totalAmount", a.amount),
      ("products", if Truthy(a.products) then a.products else DefaultProducts(a.amount)) ]
  }

  /** The body `new_order` sends, built in its order: centify the literal,
      then add the optional URLs and buyer, the invoice setting, and finally
      the keyword arguments. `None` stands for the conversion raising. */
  function OrderBody(posId: int, a: OrderArgs, kwargs: Dict): Option<Dict> {
    match CentifyDict(OrderBase(posId, a))
    case None => None
    case Some(d) =>
      var d1 := if a.notifyUrl != "" then Set(d, "notifyUrl", JStr(a.notifyUrl)) else d;
      var d2 := if a.continueUrl != "" then Set(d1, "continueUrl", JStr(a.continueUrl)) else d1;
      var d3 := if Truthy(a.buyer) then Set(d2, "buyer", a.buyer) else d2;
      var d4 := Set(d3, "settings", InvoiceSettings);
      Some(Update(d4, kwargs))
  }

  lemma ProductLineConvert(price: JVal, leaf: JVal -> Option<JVal>)
    ensures WalkEntries(ProductLine(price), leaf) ==
      (match leaf(price) case Some(c) => Some(ProductLine(c)) case None => None)
  {
    var n, q: Dict := [("name", JStr("Total order"))], [("quantity", JNum(1.0))];
    assert ProductLine(price) == n + [("unitPrice", price)] + q;
    WalkEntriesAppend(n + [("unitPrice", price)], q, leaf);
    WalkEntriesAppend(n, [("unitPrice", price)], leaf);
    WalkEntriesPlain(n, leaf);
    WalkEntriesPlain(q, leaf);
    WalkEntriesSingle("unitPrice", price, leaf);
    if leaf(price).Some? {
      assert ProductLine(leaf(price).value) == n + [("unitPrice", leaf(price).value)] + q;
    }
  }

  /** The default product line converts exactly when the amount does. */
  lemma DefaultProductsConvert(amount: JVal, leaf: JVal -> Option<JVal>)
    ensures Walk(DefaultProducts(amount), leaf) ==
      (match leaf(amount) case Some(c) => Some(DefaultProducts(c)) case None => None)
  {
    ProductLineConvert(amount, leaf);
    var m := JMap(ProductLine(amount));
    WalkItemsCons(m, [], leaf);
    assert [m] == [m] + [];
    if leaf(amount).Some? {
      var c := leaf(amount).value;
      assert [JMap(ProductLine(c))] + [] == [JMap(ProductLine(c))];
    }
  }

  /** What the order literal holds under `k`. */
  function BaseValue(posId: int, a: OrderArgs, k: string): Option<JVal> {
    if k == "extOrderId" then Some(a.orderId)
    else if k == "customerIp" then Some(JStr(if a.customerIp != "" then a.customerIp else "127.0.0.1"))
    else if k == "merchantPosId" then Some(JStr(IntToString(posId)))
    else if k == "description" then Some(JStr(if a.description != "" then a.description else "Payment order"))
    else if k == "currencyCode" then Some(JStr(Upper(a.currency)))
    else if k == "totalAmount" then Some(a.amount)
    else if k == "products" then Some(if Truthy(a.products) then a.products else DefaultProducts(a.amount))
    else None
  }

  lemma OrderBaseLookup(posId: int, a: OrderArgs, k: string)
    ensures Get(OrderBase(posId, a), k) == BaseValue(posId, a, k)
  {
    var b := OrderBase(posId, a);
    GetOfSeven(b[0], b[1], b[2], b[3], b[4], b[5], b[6], k);
    assert b == [b[0], b[1], b[2], b[3], b[4], b[5], b[6]];
  }

  /** A lookup in seven entries tries them in order. */
  lemma GetOfSeven<V>(p0: (string, V), p1: (string, V), p2: (string, V), p3: (string, V),
                      p4: (string, V), p5: (string, V), p6: (string, V), k: string)
    ensures Get([p0, p1, p2, p3, p4, p5, p6], k)
      == if p0.0 == k then Some(p0.1) else if p1.0 == k then Some(p1.1)
         else if p2.0 == k then Some(p2.1) else if p3.0 == k then Some(p3.1)
         else if p4.0 == k then Some(p4.1) else if p5.0 == k then Some(p5.1)
         else if p6.0 == k then Some(p6.1) else None
  {
    GetCons(p6, [], k);
    GetCons(p5, [p6], k);
    GetCons(p4, [p5, p6], k);
    GetCons(p3, [p4, p5, p6], k);
    GetCons(p2, [p3, p4, p5, p6], k);
    GetCons(p1, [p2, p3, p4, p5, p6], k);
    GetCons(p0, [p1, p2, p3, p4, p5, p6], k);
  }

  lemma GetCons<V>(p: (string, V), rest: seq<(string, V)>, k: string)
    ensures Get([p] + rest, k) == if p.0 == k then Some(p.1) else Get(rest, k)
  {
    assert ([p] + rest)[1..] == rest;
  }

  /** The optional fields and the invoice setting `new_order` adds after
      the conversion. */
  lemma OrderExtras(d: Dict, a: OrderArgs, k: string)
    ensures
      var d1 := if a.notifyUrl != "" then Set(d, "notifyUrl", JStr(a.notifyUrl)) else d;
      var d2 := if a.continueUrl != "" then Set(d1, "continueUrl", JStr(a.continueUrl)) else d1;
      var d3 := if Truthy(a.buyer) then Set(d2, "buyer", a.buyer) else d2;
      Get(Set(d3, "settings", InvoiceSettings), k)
        == if k == "settings" then Some(InvoiceSettings)
           else if k == "buyer" && Truthy(a.buyer) then Some(a.buyer)
           else if k == "continueUrl" && a.continueUrl != "" then Some(JStr(a.continueUrl))
           else if k == "notifyUrl" && a.notifyUrl != "" then Some(JStr(a.notifyUrl))
           else Get(d, k)
  {
    var d1 := if a.notifyUrl != "" then Set(d, "notifyUrl", JStr(a.notifyUrl)) else d;
    var d2 := if a.continueUrl != "" then Set(d1, "continueUrl", JStr(a.continueUrl)) else d1;
    var d3 := if Truthy(a.buyer) then Set(d2, "buyer", a.buyer) else d2;
    if a.notifyUrl != "" { GetSet(d, "notifyUrl", JStr(a.notifyUrl), k); }
    if a.continueUrl != "" { GetSet(d1, "continueUrl", JStr(a.continueUrl), k); }
    if Truthy(a.buyer) { GetSet(d2, "buyer", a.buyer, k); }
    GetSet(d3, "settings", InvoiceSettings, k);
  }

  /** The value `new_order` puts under `k` before the keyword arguments
      are applied. */
  function OrderField(posId: int, a: OrderArgs, k: string, leaf: JVal -> Option<JVal>): Option<JVal> {
    if k == "settings" then Some(InvoiceSettings)
    else if k == "buyer" && Truthy(a.buyer) then Some(a.buyer)
    else if k == "continueUrl" && a.continueUrl != "" then Some(JStr(a.continueUrl))
    else if k == "notifyUrl" && a.notifyUrl != "" then Some(JStr(a.notifyUrl))
    else
      match BaseValue(posId, a, k)
      case None => None
      case Some(x) => ConvertEntry(k, x, leaf)
  }

  /** The order literal converts exactly when the order id, the amount and
      the products do. */
  lemma OrderBaseWalk(posId: int, a: OrderArgs, leaf: JVal -> Option<JVal>)
    ensures WalkEntries(OrderBase(posId, a), leaf).Some?
        <==> Walk(a.orderId, leaf).Some? && leaf(a.amount).Some?
             && Walk(if Truthy(a.products) then a.products else DefaultProducts(a.amount), leaf).Some?
  {
    var b := OrderBase(posId, a);
    WalkEntriesSome(b, leaf);
    assert ConvertEntry(b[0].0, b[0].1, leaf) == Walk(a.orderId, leaf);
    assert ConvertEntry(b[5].0, b[5].1, leaf) == leaf(a.amount);
    assert ConvertEntry(b[6].0, b[6].1, leaf) == Walk(b[6].1, leaf);
    assert forall i :: 1 <= i < 5 ==> ConvertEntry(b[i].0, b[i].1, leaf) == Some(b[i].1);
  }

  /** The order body converts exactly when the amount, the order id and
      any given products do. */
  lemma OrderBodySome(posId: int, a: OrderArgs, kwargs: Dict)
    ensures OrderBody(posId, a, kwargs).Some?
        <==> ToCents(a.amount).Some? && Centify(a.orderId).Some?
             && (Truthy(a.products) ==> Centify(a.products).Some?)
  {
    OrderBaseWalk(posId, a, CentsLeaf);
    DefaultProductsConvert(a.amount, CentsLeaf);
  }

  /** Each key of the body holds the keyword argument's value if there is
      one, otherwise what `new_order` put there. */
  lemma OrderBodyGet(posId: int, a: OrderArgs, kwargs: Dict, k: string)
    requires DistinctKeys(kwargs)
    requires OrderBody(posId, a, kwargs).Some?
    ensures Get(OrderBody(posId, a, kwargs).value, k) == Override(kwargs, k, OrderField(posId, a, k, CentsLeaf))
  {
    var d := CentifyDict(OrderBase(posId, a)).value;
    var d1 := if a.notifyUrl != "" then Set(d, "notifyUrl", JStr(a.notifyUrl)) else d;
    var d2 := if a.continueUrl != "" then Set(d1, "continueUrl", JStr(a.continueUrl)) else d1;
    var d3 := if Truthy(a.buyer) then Set(d2, "buyer", a.buyer) else d2;
    var d4 := Set(d3, "settings", InvoiceSettings);
    GetUpdate(d4, kwargs, k);
    OrderExtras(d, a, k);
    WalkEntriesGet(OrderBase(posId, a), CentsLeaf, k);
    OrderBaseLookup(posId, a, k);
  }

  /** The order body's fixed fields: the customer IP defaults to
      127.0.0.1, the description to "Payment order", the currency code is
      upper case, the shop's POS id is a string, and the order id is walked
      like the rest of the body. */
  lemma OrderDefaults(posId: int, a: OrderArgs, leaf: JVal -> Option<JVal>)
    ensures OrderField(posId, a, "customerIp", leaf) == Some(JStr(if a.customerIp != "" then a.customerIp else "127.0.0.1"))
    ensures OrderField(posId, a, "merchantPosId", leaf) == Some(JStr(IntToString(posId)))
    ensures OrderField(posId, a, "description", leaf) == Some(JStr(if a.description != "" then a.description else "Payment order"))
    ensures OrderField(posId, a, "currencyCode", leaf) == Some(JStr(Upper(a.currency)))
    ensures OrderField(posId, a, "extOrderId", leaf) == Walk(a.orderId, leaf)
  {
    assert "customerIp" !in Convertables && "merchantPosId" !in Convertables;
    assert "description" !in Convertables && "currencyCode" !in Convertables;
    assert "extOrderId" !in Convertables;
  }

  lemma OrderAmountsWalk(posId: int, a: OrderArgs, leaf: JVal -> Option<JVal>)
    requires leaf(a.amount).Some?
    ensures OrderField(posId, a, "totalAmount", leaf) == leaf(a.amount)
    ensures OrderField(posId, a, "products", leaf)
         == if Truthy(a.products) then Walk(a.products, leaf) else Some(DefaultProducts(leaf(a.amount).value))
  {
    DefaultProductsConvert(a.amount, leaf);
  }

  /** The order body's money: the total is the amount in minor units as an
      integer string, and without products one "Total order" line of
      quantity 1 at that total is sent. */
  lemma OrderAmounts(posId: int, a: OrderArgs)
    requires ToCents(a.amount).Some?
    ensures var cents := JStr(IntToString(ToCents(a.amount).value));
      && OrderField(posId, a, "totalAmount", CentsLeaf) == Some(cents)
      && OrderField(posId, a, "products", CentsLeaf) == (if Truthy(a.products) then Centify(a.products) else Some(DefaultProducts(cents)))
  {
    OrderAmountsWalk(posId, a, CentsLeaf);
  }

  /** The notify URL, the continue URL and the buyer appear only when given
      and are sent unconverted; invoices are always disabled. */
  lemma OrderOptionals(posId: int, a: OrderArgs, leaf: JVal -> Option<JVal>)
    ensures OrderField(posId, a, "notifyUrl", leaf) == (if a.notifyUrl != "" then Some(JStr(a.notifyUrl)) else None)
    ensures OrderField(posId, a, "continueUrl", leaf) == (if a.continueUrl != "" then Some(JStr(a.continueUrl)) else None)
    ensures OrderField(posId, a, "buyer", leaf) == (if Truthy(a.buyer) then Some(a.buyer) else None)
    ensures OrderField(posId, a, "settings", leaf) == Some(InvoiceSettings)
  {
  }

  /** The `refund` dict before conversion. */
  function RefundData(amount: JVal, description: string): Dict {
    [("description", JStr(if description != "" then description else "Refund"))]
    + (if Truthy(amount) then [("amount", amount)] else [])
  }

  /** The body `refund` sends: `{"refund": _centify(data), "orderId": id}`. */
  function RefundBody(orderId: string, amount: JVal, description: string): Option<JVal> {
    match CentifyDict(RefundData(amount, description))
    case Some(d) => Some(JMap([("refund", JMap(d)), ("orderId", JStr(orderId))]))
    case None => None
  }

  /** The refund dict converts its amount only. */
  lemma RefundDataWalk(amount: JVal, description: string, leaf: JVal -> Option<JVal>)
    ensures var data := RefundData(amount, description);
      WalkEntries(data, leaf) ==
        if !Truthy(amount) then Some(data)
        else match leaf(amount) case Some(c) => Some([data[0], ("amount", c)]) case None => None
  {
    var data := RefundData(amount, description);
    var rest: Dict := if Truthy(amount) then [("amount", amount)] else [];
    assert data == [data[0]] + rest;
    WalkEntriesAppend([data[0]], rest, leaf);
    WalkEntriesPlain([data[0]], leaf);
    if Truthy(amount) {
      WalkEntriesSingle("amount", amount, leaf);
      assert ConvertEntry("amount", amount, leaf) == leaf(amount);
      if leaf(amount).Some? {
        assert [data[0]] + [("amount", leaf(amount).value)] == [data[0], ("amount", leaf(amount).value)];
      }
    } else {
      assert data == [data[0]];
    }
  }

  /** The refund body names the order, describes the refund ("Refund" by
      default) and carries the amount in minor units only when an amount
      is given; a missing amount means a full refund. */
  lemma RefundBodyFields(orderId: string, amount: JVal, description: string)
    ensures RefundBody(orderId, amount, description).Some? <==> (!Truthy(amount) || ToCents(amount).Some?)
    ensures RefundBody(orderId, amount, description).Some? ==>
      var b := RefundBody(orderId, amount, description).value;
      && Field(b, "orderId") == Some(JStr(orderId))
      && Field(b, "refund").Some? && Field(b, "refund").value.JMap?
      && var refund := Field(b, "refund").value.entries;
      && Get(refund, "description") == Some(JStr(if description != "" then description else "Refund"))
      && Get(refund, "amount") == (if Truthy(amount) then Some(JStr(IntToString(ToCents(amount).value))) else None)
  {
    RefundDataWalk(amount, description, CentsLeaf);
    var desc := ("description", JStr(if description != "" then description else "Refund"));
    if RefundBody(orderId, amount, description).Some? {
      var refund := CentifyDict(RefundData(amount, description)).value;
      var entries := [("refund", JMap(refund)), ("orderId", JStr(orderId))];
      assert entries[1..] == [("orderId", JStr(orderId))];
      assert Get(entries, "orderId") == Some(JStr(orderId));
      assert refund[0] == desc;
      if Truthy(amount) {
        assert refund[1..] == [("amount", CentsLeaf(amount).value)];
      }
    }
  }

  /* ---------------------------------------------------------------------
     Responses
     --------------------------------------------------------------------- */

  /** The statuses an operation accepts. */
  function OkStatuses(op: Operation): set<int> {
    if op == NewOrder then {200, 201, 302} else {200}
  }

  /** The exception an operation raises on any other status. */
  function Rejection(op: Operation, resp: HttpResponse): ClientError {
    match op
    case NewOrder => LockFailure(resp)
    case Refund => RefundFailure(resp)
    case CancelOrder => CancelFailure(resp)
    case Capture => ChargeFailure(resp)
    case GetOrderInfo => CommunicationError(resp)
  }

  /** The result of an operation whose request got `resp`: on an accepted
      status the body in major units, otherwise the operation's failure
      carrying the raw response. */
  function Classify(op: Operation, resp: HttpResponse): (r: Result<JVal, ClientError>)
    ensures r.Success? <==> resp.status in OkStatuses(op) && Normalize(resp.body).Some?
    ensures r.Success? ==> Converted(resp.body, r.value, UnitsLeaf)
    ensures resp.status !in OkStatuses(op) ==> r == Failure(Rejection(op, resp))
  {
    if resp.status in OkStatuses(op) then
      match Normalize(resp.body)
      case Some(v) => NormalizeMeaning(resp.body, v); Success(v)
      case None => Failure(DataError)
    else Failure(Rejection(op, resp))
  }

  /** Only an order creation accepts 201 and 302; every other operation
      accepts 200 alone; and each rejects with its own exception. */
  lemma OutcomeTable(resp: HttpResponse)
    requires Normalize(resp.body).Some?
    ensures Classify(NewOrder, resp).Success? <==> resp.status in {200, 201, 302}
    ensures forall op :: op != NewOrder ==> (Classify(op, resp).Success? <==> resp.status == 200)
    ensures resp.status != 200 ==>
      && Classify(Refund, resp) == Failure(RefundFailure(resp))
      && Classify(CancelOrder, resp) == Failure(CancelFailure(resp))
      && Classify(Capture, resp) == Failure(ChargeFailure(resp))
      && Classify(GetOrderInfo, resp) == Failure(CommunicationError(resp))
    ensures resp.status !in {200, 201, 302} ==> Classify(NewOrder, resp) == Failure(LockFailure(resp))
  {
  }

  /** An operation with its arguments. */
  datatype Build =
    | BuildNewOrder(a: OrderArgs, kwargs: Dict)
    | BuildRefund(orderId: string, amount: JVal, description: string, kwargs: Dict)
    | BuildCancelOrder(orderId: string, kwargs: Dict)
    | BuildCapture(orderId: string, kwargs: Dict)
    | BuildGetOrderInfo(orderId: string, kwargs: Dict)

  function OperationOf(b: Build): Operation {
    match b
    case BuildNewOrder(_, _) => NewOrder
    case BuildRefund(_, _, _, _) => Refund
    case BuildCancelOrder(_, _) => CancelOrder
    case BuildCapture(_, _) => Capture
    case BuildGetOrderInfo(_, _) => GetOrderInfo
  }

  /** The request an operation sends with `token`; `None` when building
      its body raises. Every request carries `Headers(token, kwargs)`. */
  function RequestOf(config: ClientConfig, b: Build, token: string): Option<HttpRequest> {
    match b
    case BuildNewOrder(a, kwargs) =>
      (match OrderBody(config.posId, a, kwargs)
       case Some(body) => Some(HttpRequest(POST, OrdersPath, Headers(token, kwargs), Some(JMap(body))))
       case None => None)
    case BuildRefund(orderId, amount, description, kwargs) =>
      (match RefundBody(orderId, amount, description)
       case Some(body) => Some(HttpRequest(POST, OrderPath(orderId) + "/refunds", Headers(token, kwargs), Some(body)))
       case None => None)
    case BuildCancelOrder(orderId, kwargs) =>
      Some(HttpRequest(DELETE, OrderPath(orderId), Headers(token, kwargs), None))
    case BuildCapture(orderId, kwargs) =>
      Some(HttpRequest(PUT, OrderPath(orderId) + "/status", Headers(token, kwargs), None))
    case BuildGetOrderInfo(orderId, kwargs) =>
      Some(HttpRequest(GET, OrderPath(orderId), Headers(token, kwargs), None))
  }

  /** One guarded operation: the state after it, the requests sent, and
      the result. */
  datatype Call = Call(state: ClientState, sent: seq<HttpRequest>, result: Result<JVal, ClientError>)

  /** An operation wrapped by `ensure_auth`: the guard, then the request
      built with the (possibly new) token, then the classification of the
      response, which also becomes `last_response`. */
  function Perform(config: ClientConfig, st: ClientState, now: int, auth: HttpResponse,
                   b: Build, resp: HttpResponse): Call
  {
    var (st1, sent, err) := Guard(config, st, now, auth);
    if err.Some? then Call(st1, sent, Failure(err.value))
    else
      match RequestOf(config, b, st1.session.token)
      case None => Call(st1, sent, Failure(DataError))
      case Some(req) => Call(ClientState(st1.session, Some(resp)), sent + [req], Classify(OperationOf(b), resp))
  }

  /** An operation's request goes out only after a successful guard and
      with the token the guard leaves; when it goes out its response is
      the new `last_response` and decides the result; the session is only
      ever changed by the guard. */
  lemma PerformOrder(config: ClientConfig, st: ClientState, now: int, auth: HttpResponse,
                     b: Build, resp: HttpResponse)
    ensures var c := Perform(config, st, now, auth, b, resp);
      var (st1, pre, err) := Guard(config, st, now, auth);
      && c.state.session == st1.session
      && (!NeedsAuth(st.session.expiration, now) ==> c.state.session == st.session)
      && (err.Some? ==> c.sent == pre && c.result == Failure(err.value) && c.state == st1)
      && (|c.sent| > |pre| <==> err.None? && RequestOf(config, b, st1.session.token).Some?)
      && (|c.sent| > |pre| ==>
            && c.sent == pre + [RequestOf(config, b, st1.session.token).value]
            && c.state.lastResponse == Some(resp)
            && c.result == Classify(OperationOf(b), resp))
  {
  }

  /* ---------------------------------------------------------------------
     The client object
     --------------------------------------------------------------------- */

  class Client {
    const config: ClientConfig
    var token: string
    var tokenExpiration: int
    var lastResponse: Option<HttpResponse>

    function State(): ClientState
      reads this
    {
      ClientState(Session(token, tokenExpiration), lastResponse)
    }

    /** The object before `__init__` has authorized: no response yet. */
    constructor Init(config: ClientConfig)
      ensures this.config == config && lastResponse == None
    {
      this.config := config;
      token := "";
      tokenExpiration := 0;
      lastResponse := None;
    }

    /** `_authorize`. */
    method Authorize(now: int, resp: HttpResponse) returns (err: Option<ClientError>)
      modifies this
      ensures Session(token, tokenExpiration) == Authorized(old(State()).session, now, resp).0
      ensures err == Authorized(old(State()).session, now, resp).1
      ensures lastResponse == Some(resp)
    {
      ghost var s := old(State()).session;
      lastResponse := Some(resp);
      if resp.status == 200 {
        var t := TokenOf(resp.body);
        if t.None? {
          return Some(DataError);
        }
        token := t.value;
        var e := ExpiresIn(resp.body);
        if e.None? {
          return Some(DataError);
        }
        tokenExpiration := now + e.value;
        err := None;
      } else {
        err := Some(CredentialsError(resp));
      }
    }

    /** The `ensure_auth` decorator. */
    method EnsureAuth(now: int, auth: HttpResponse) returns (sent: seq<HttpRequest>, err: Option<ClientError>)
      modifies this
      ensures (State(), sent, err) == Guard(config, old(State()), now, auth)
    {
      if tokenExpiration < now - 5 {
        err := Authorize(now, auth);
        sent := [AuthRequest(config)];
      } else {
        sent, err := [], None;
      }
    }

    /** Records the response to `req` and classifies it. */
    method Send(op: Operation, req: HttpRequest, resp: HttpResponse) returns (r: Result<JVal, ClientError>)
      modifies this`lastResponse
      ensures lastResponse == Some(resp) && r == Classify(op, resp)
    {
      lastResponse := Some(resp);
      if resp.status in OkStatuses(op) {
        var v := Normalize(resp.body);
        if v.None? {
          return Failure(DataError);
        }
        r := Success(v.value);
      } else {
        r := Failure(Rejection(op, resp));
      }
    }

    /** `new_order`: the body is built step by step as the source does. */
    method NewOrder(a: OrderArgs, kwargs: Dict, now: int, auth: HttpResponse, resp: HttpResponse)
      returns (sent: seq<HttpRequest>, r: Result<JVal, ClientError>)
      modifies this
      ensures Call(State(), sent, r) == Perform(config, old(State()), now, auth, BuildNewOrder(a, kwargs), resp)
    {
      var err;
      sent, err := EnsureAuth(now, auth);
      if err.Some? {
        return sent, Failure(err.value);
      }
      var centified := CentifyDict(OrderBase(config.posId, a));
      if centified.None? {
        return sent, Failure(DataError);
      }
      var data := centified.value;
      if a.notifyUrl != "" {
        data := Set(data, "notifyUrl", JStr(a.notifyUrl));
      }
      if a.continueUrl != "" {
        data := Set(data, "continueUrl", JStr(a.continueUrl));
      }
      if Truthy(a.buyer) {
        data := Set(data, "buyer", a.buyer);
      }
      data := Set(data, "settings", InvoiceSettings);
      var headers := Headers(token, kwargs);
      data := Update(data, kwargs);
      var req := HttpRequest(POST, OrdersPath, headers, Some(JMap(data)));
      sent := sent + [req];
      r := Send(Operation.NewOrder, req, resp);
    }

    /** `refund`: keyword arguments go to the headers only. */
    method Refund(orderId: string, amount: JVal, description: string, kwargs: Dict,
                  now: int, auth: HttpResponse, resp: HttpResponse)
      returns (sent: seq<HttpRequest>, r: Result<JVal, ClientError>)
      modifies this
      ensures Call(State(), sent, r)
           == Perform(config, old(State()), now, auth, BuildRefund(orderId, amount, description, kwargs), resp)
    {
      var err;
      sent, err := EnsureAuth(now, auth);
      if err.Some? {
        return sent, Failure(err.value);
      }
      var data: Dict := [("description", JStr(if description != "" then description else "Refund"))];
      if Truthy(amount) {
        assert data[1..] == [];
        assert Set(data, "amount", amount) == [data[0]] + Set([], "amount", amount);
        data := Set(data, "amount", amount);
      }
      assert data == RefundData(amount, description);
      var centified := CentifyDict(data);
      if centified.None? {
        return sent, Failure(DataError);
      }
      var body := JMap([("refund", JMap(centified.value)), ("orderId", JStr(orderId))]);
      var req := HttpRequest(POST, OrderPath(orderId) + "/refunds", Headers(token, kwargs), Some(body));
      sent := sent + [req];
      r := Send(Operation.Refund, req, resp);
    }

    /** `cancel_order`. */
    method CancelOrder(orderId: string, kwargs: Dict, now: int, auth: HttpResponse, resp: HttpResponse)
      returns (sent: seq<HttpRequest>, r: Result<JVal, ClientError>)
      modifies this
      ensures Call(State(), sent, r) == Perform(config, old(State()), now, auth, BuildCancelOrder(orderId, kwargs), resp)
    {
      var err;
      sent, err := EnsureAuth(now, auth);
      if err.Some? {
        return sent, Failure(err.value);
      }
      var req := HttpRequest(DELETE, OrderPath(orderId), Headers(token, kwargs), None);
      sent := sent + [req];
      r := Send(Operation.CancelOrder, req, resp);
    }

    /** `capture`: the status update it builds is never attached, so the
        PUT goes out without a body. */
    method Capture(orderId: string, kwargs: Dict, now: int, auth: HttpResponse, resp: HttpResponse)
      returns (sent: seq<HttpRequest>, r: Result<JVal, ClientError>)
      modifies this
      ensures Call(State(), sent, r) == Perform(config, old(State()), now, auth, BuildCapture(orderId, kwargs), resp)
    {
      var err;
      sent, err := EnsureAuth(now, auth);
      if err.Some? {
        return sent, Failure(err.value);
      }
      var req := HttpRequest(PUT, OrderPath(orderId) + "/status", Headers(token, kwargs), None);
      sent := sent + [req];
      r := Send(Operation.Capture, req, resp);
    }

    /** `get_order_info`. */
    method GetOrderInfo(orderId: string, kwargs: Dict, now: int, auth: HttpResponse, resp: HttpResponse)
      returns (sent: seq<HttpRequest>, r: Result<JVal, ClientError>)
      modifies this
      ensures Call(State(), sent, r) == Perform(config, old(State()), now, auth, BuildGetOrderInfo(orderId, kwargs), resp)
    {
      var err;
      sent, err := EnsureAuth(now, auth);
      if err.Some? {
        return sent, Failure(err.value);
      }
      var req := HttpRequest(GET, OrderPath(orderId), Headers(token, kwargs), None);
      sent := sent + [req];
      r := Send(Operation.GetOrderInfo, req, resp);
    }
  }

  /** `Client.__init__`: store the configuration and authorize; a failed
      authorization raises, so no client is obtained. */
  method Connect(config: ClientConfig, now: int, auth: HttpResponse) returns (r: Result<Client, ClientError>)
    ensures r.Success? ==> fresh(r.value) && r.value.config == config
    ensures r.Success? <==> Authorized(Session("", 0), now, auth).1 == None
    ensures r.Success? ==> r.value.State() == ClientState(Authorized(Session("", 0), now, auth).0, Some(auth))
    ensures r.Failure? ==> r.error == Authorized(Session("", 0), now, auth).1.value
  {
    var c := new Client.Init(config);
    var err := c.Authorize(now, auth);
    if err.Some? {
      return Failure(err.value);
    }
    return Success(c);
  }
}

=== FILE: fsm.dfy ===
/** The payment record the processor drives. Its state machine belongs to
    the payment framework and is not part of this model: it is given as a
    value, `Machine`, whose `canProceed` is django-fsm's `can_proceed` and
    whose `apply` is the transition's effect. Calling a transition that is
    not allowed raises `TransitionNotAllowed` and changes nothing. */
module PaymentFsm {

  /** The transitions the processor calls. */
  datatype Event =
    | ConfirmPrepared
    | ConfirmLock
    | ConfirmPayment
    | MarkAsPaid
    | ConfirmRefund(amount: real)
    | CancelRefund
    | MarkAsRefunded
    | Fail

  datatype Machine<!S> = Machine(canProceed: (S, Event) -> bool, apply: (S, Event) -> S)

  /** `fired` is a run of allowed transitions from `s` ending in `t`. */
  ghost predicate ValidTrace<S>(m: Machine<S>, s: S, fired: seq<Event>, t: S)
    decreases |fired|
  {
    if fired == [] then t == s
    else m.canProceed(s, fired[0]) && ValidTrace(m, m.apply(s, fired[0]), fired[1..], t)
  }

  /** A run of allowed transitions followed by another allowed one. */
  lemma {:induction false} ValidTraceSnoc<S>(m: Machine<S>, s: S, fired: seq<Event>, t: S, e: Event)
    requires ValidTrace(m, s, fired, t) && m.canProceed(t, e)
    ensures ValidTrace(m, s, fired + [e], m.apply(t, e))
    decreases |fired|
  {
    if fired == [] {
      assert [] + [e] == [e];
      assert [e][1..] == [];
    } else {
      ValidTraceSnoc(m, m.apply(s, fired[0]), fired[1..], t, e);
      assert (fired + [e])[1..] == fired[1..] + [e];
    }
  }

  /** What `save()` writes: the state and the external id. */
  datatype Record<S> = Record(state: S, externalId: string)

  class Payment<S> {
    const machine: Machine<S>
    var state: S
    var externalId: string
    var amountLocked: real
    /** The records written by `save()`, oldest first. */
    var saved: seq<Record<S>>
    /** The transitions that ran on this object, oldest first. */
    ghost var history: seq<Event>

    constructor (machine: Machine<S>, state: S, externalId: string, amountLocked: real)
      ensures this.machine == machine && this.state == state
      ensures this.externalId == externalId && this.amountLocked == amountLocked
      ensures saved == [] && history == []
    {
      this.machine := machine;
      this.state := state;
      this.externalId := externalId;
      this.amountLocked := amountLocked;
      saved := [];
      history := [];
    }

    /** Calls a transition: when it is allowed the state moves, otherwise
        `TransitionNotAllowed` is raised (`ok` is false) and nothing changes. */
    method Fire(e: Event) returns (ok: bool)
      modifies this`state, this`history
      ensures ok == machine.canProceed(old(state), e)
      ensures state == if ok then machine.apply(old(state), e) else old(state)
      ensures history == if ok then old(history) + [e] else old(history)
    {
      ok := machine.canProceed(state, e);
      if ok {
        state := machine.apply(state, e);
        history := history + [e];
      }
    }

    /** `save()`. */
    method Save()
      modifies this`saved
      ensures saved == old(saved) + [Record(state, externalId)]
    {
      saved := saved + [Record(state, externalId)];
    }
  }
}

=== FILE: json.dfy ===
/** JSON-like values as the gateway client and the processor see them after
    decoding, and Python dictionary semantics over ordered key/value lists. */
module Json {
  import opened Wrappers

  /** A decoded JSON value. Numbers are exact (`real`), as Python's `Decimal`
      and `int` are; a dict keeps its insertion order. */
  datatype JVal =
    | JNull
    | JBool(b: bool)
    | JNum(n: real)
    | JStr(s: string)
    | JList(items: seq<JVal>)
    | JMap(entries: Dict)

  type Dict = seq<(string, JVal)>

  /** Python truthiness (`if v:`) of a JSON value. */
  predicate Truthy(v: JVal) {
    match v
    case JNull => false
    case JBool(b) => b
    case JNum(n) => n != 0.0
    case JStr(s) => s != ""
    case JList(xs) => xs != []
    case JMap(m) => m != []
  }

  function Keys<V>(d: seq<(string, V)>): (ks: seq<string>)
    ensures |ks| == |d|
    ensures forall i :: 0 <= i < |d| ==> ks[i] == d[i].0
  {
    if d == [] then [] else [d[0].0] + Keys(d[1..])
  }

  /** The keys of a Python dict are pairwise different. */
  predicate DistinctKeys<V>(d: seq<(string, V)>) {
    forall i, j :: 0 <= i < j < |d| ==> d[i].0 != d[j].0
  }

  /** `d.get(k)`: the value stored under `k`, if any. */
  function Get<V>(d: seq<(string, V)>, k: string): (r: Option<V>)
    ensures r.Some? <==> k in Keys(d)
  {
    if d == [] then None
    else if d[0].0 == k then Some(d[0].1)
    else Get(d[1..], k)
  }

  /** `v[key]` on a decoded value: `None` when `v` is no dict or lacks the
      key (Python raises then). */
  function Field(v: JVal, key: string): (r: Option<JVal>)
    ensures r.Some? <==> v.JMap? && key in Keys(v.entries)
  {
    if v.JMap? then Get(v.entries, key) else None
  }

  /** `d[k] = v`: an existing key keeps its position, a new key is appended. */
  function Set<V>(d: seq<(string, V)>, k: string, v: V): seq<(string, V)> {
    if d == [] then [(k, v)]
    else if d[0].0 == k then [(k, v)] + d[1..]
    else [d[0]] + Set(d[1..], k, v)
  }

  /** Assigning a new key appends it. */
  lemma {:induction false} SetNew<V>(d: seq<(string, V)>, k: string, v: V)
    requires k !in Keys(d)
    ensures Set(d, k, v) == d + [(k, v)]
  {
    if d != [] {
      assert Keys(d) == [d[0].0] + Keys(d[1..]);
      SetNew(d[1..], k, v);
      assert d == [d[0]] + d[1..];
    }
  }

  /** `d.update(kw)`: the assignments of `kw`, in its order. */
  function Update<V>(d: seq<(string, V)>, kw: seq<(string, V)>): seq<(string, V)>
    decreases |kw|
  {
    if kw == [] then d else Update(Set(d, kw[0].0, kw[0].1), kw[1..])
  }

  /** Looking up after an assignment sees the assigned value for that key and
      the old value for every other key. */
  lemma {:induction false} GetSet<V>(d: seq<(string, V)>, k: string, v: V, k': string)
    ensures Get(Set(d, k, v), k') == if k' == k then Some(v) else Get(d, k')
  {
    if d != [] && d[0].0 != k {
      GetSet(d[1..], k, v, k');
    }
  }

  /** An assignment never reorders keys: it appends a key only when it is new. */
  lemma {:induction false} KeysSet<V>(d: seq<(string, V)>, k: string, v: V)
    ensures Keys(Set(d, k, v)) == if k in Keys(d) then Keys(d) else Keys(d) + [k]
  {
    if d != [] && d[0].0 != k {
      KeysSet(d[1..], k, v);
      assert Keys(d) == [d[0].0] + Keys(d[1..]);
    }
  }

  lemma {:induction false} SetKeepsDistinct<V>(d: seq<(string, V)>, k: string, v: V)
    requires DistinctKeys(d)
    ensures DistinctKeys(Set(d, k, v))
  {
    KeysSet(d, k, v);
    var r := Set(d, k, v);
    assert Keys(r) == if k in Keys(d) then Keys(d) else Keys(d) + [k];
    forall i, j | 0 <= i < j < |r| ensures r[i].0 != r[j].0 {
      assert r[i].0 == Keys(r)[i] && r[j].0 == Keys(r)[j];
      if k !in Keys(d) && j == |d| {
        assert Keys(r)[i] == Keys(d)[i];
      } else {
        assert Keys(r)[i] == Keys(d)[i] && Keys(r)[j] == Keys(d)[j];
      }
    }
  }

  /** After `d.update(kw)` a key of `kw` holds `kw`'s value; any other key
      holds what it held in `d`. */
  lemma {:induction false} GetUpdate<V>(d: seq<(string, V)>, kw: seq<(string, V)>, k: string)
    requires DistinctKeys(kw)
    ensures Get(Update(d, kw), k) == if k in Keys(kw) then Get(kw, k) else Get(d, k)
    decreases |kw|
  {
    if kw != [] {
      assert DistinctKeys(kw[1..]);
      GetUpdate(Set(d, kw[0].0, kw[0].1), kw[1..], k);
      GetSet(d, kw[0].0, kw[0].1, k);
      assert Keys(kw) == [kw[0].0] + Keys(kw[1..]);
      if k == kw[0].0 {
        assert k !in Keys(kw[1..]);
      }
    }
  }

  /** Looking up in the concatenation of two dicts' entries finds the first
      one's value when it has the key. */
  lemma {:induction false} GetAppend<V>(m1: seq<(string, V)>, m2: seq<(string, V)>, k: string)
    ensures Get(m1 + m2, k) == if k in Keys(m1) then Get(m1, k) else Get(m2, k)
  {
    if m1 != [] {
      GetAppend(m1[1..], m2, k);
      assert (m1 + m2)[1..] == m1[1..] + m2;
      assert Keys(m1) == [m1[0].0] + Keys(m1[1..]);
    } else {
      assert m1 + m2 == m2;
    }
  }
}

=== FILE: processor.dfy ===
/** The PayU payment processor: configuration checks, buyer data, the
    signed POST form, the notification handler and the calls that drive a
    payment through the PayU client. */
module Processor {
  import opened Wrappers
  import opened Json
  import opened Text
  import opened Gateway
  import opened PaymentFsm
  import opened Signature
  import opened Reconcile

  /* ---------------------------------------------------------------------
     Settings
     --------------------------------------------------------------------- */

  /** The backend settings the processor reads; `None` is an absent
      setting. */
  datatype Settings = Settings(
    posId: int, secondKey: string, algorithm: Option<string>, paywallMethod: Option<string>)

  /** The settings `validate_config` insists on. */
  const RequiredKeys: seq<string> := ["pos_id", "second_key", "oauth_id", "oauth_secret"]

  /** `config.get(key, None)` is truthy. */
  predicate Configured(config: Dict, key: string) {
    Truthy(Get(config, key).GetOr(JNull))
  }

  /** `validate_config`: the first required key whose setting is missing or
      falsy, if any (the source raises at that key). */
  method ValidateConfig(config: Dict) returns (missing: Option<string>)
    ensures missing.None? <==> forall i :: 0 <= i < |RequiredKeys| ==> Configured(config, RequiredKeys[i])
    ensures missing.Some? ==>
      exists i :: 0 <= i < |RequiredKeys| && missing.value == RequiredKeys[i]
        && !Configured(config, RequiredKeys[i])
        && forall j :: 0 <= j < i ==> Configured(config, RequiredKeys[j])
  {
    var i := 0;
    while i < |RequiredKeys|
      invariant 0 <= i <= |RequiredKeys|
      invariant forall j :: 0 <= j < i ==> Configured(config, RequiredKeys[j])
    {
      if !Configured(config, RequiredKeys[i]) {
        return Some(RequiredKeys[i]);
      }
      i := i + 1;
    }
    return None;
  }

  /* ---------------------------------------------------------------------
     Buyer data
     --------------------------------------------------------------------- */

  /** The optional buyer fields: the key read from the user data and the
      key written to the buyer section. */
  const BuyerKeys: seq<(string, string)> :=
    [("phone", "phone"), ("firstName", "first_name"), ("last_name", "last_name"), ("language", "language")]

  /** Every key a buyer section can hold. */
  const BuyerFields: seq<string> := ["email", "phone", "first_name", "last_name", "language"]

  /** The buyer keys written are pairwise different, none is `email`, and
      each is a buyer field. */
  lemma BuyerFieldsDistinct()
    ensures forall i, j :: 0 <= i < |BuyerKeys| && 0 <= j < |BuyerKeys| && i != j ==> BuyerKeys[i].1 != BuyerKeys[j].1
    ensures forall i :: 0 <= i < |BuyerKeys| ==> BuyerKeys[i].1 != "email" && BuyerKeys[i].1 in BuyerFields
    ensures "email" in BuyerFields
  {
    assert "email"[0] != "phone"[0];
    assert "first_name"[0] != "last_name"[0];
    assert "first_name"[0] != "language"[0];
    assert "last_name"[2] != "language"[2];
  }

  /** The value an optional buyer field `keys[i]` takes in the buyer section. */
  function BuyerValue(userInfo: Dict, keys: seq<(string, string)>, i: nat): Option<JVal>
    requires i < |keys|
  {
    if Configured(userInfo, keys[i].0) then Get(userInfo, keys[i].0) else None
  }

  /** The buyer section after the first `n` optional fields of `keys`. */
  ghost predicate BuyerSoFar(userInfo: Dict, email: JVal, buyer: Dict,
                             keys: seq<(string, string)>, fields: seq<string>, n: nat)
    requires n <= |keys|
  {
    && Get(buyer, "email") == Some(email)
    && (forall j :: 0 <= j < n ==> Get(buyer, keys[j].1) == BuyerValue(userInfo, keys, j))
    && (forall j :: n <= j < |keys| ==> Get(buyer, keys[j].1) == None)
    && DistinctKeys(buyer)
    && (forall k :: k in Keys(buyer) ==> k in fields)
  }

  lemma BuyerStep(userInfo: Dict, email: JVal, buyer: Dict, keys: seq<(string, string)>, fields: seq<string>, n: nat)
    requires n < |keys| && BuyerSoFar(userInfo, email, buyer, keys, fields, n)
    requires Configured(userInfo, keys[n].0)
    requires keys[n].1 != "email" && keys[n].1 in fields
    requires forall j :: 0 <= j < |keys| && j != n ==> keys[j].1 != keys[n].1
    ensures BuyerSoFar(userInfo, email, Set(buyer, keys[n].1, Get(userInfo, keys[n].0).value), keys, fields, n + 1)
  {
    var dst := keys[n].1;
    var v := Get(userInfo, keys[n].0).value;
    var next := Set(buyer, dst, v);
    GetSet(buyer, dst, v, "email");
    forall j | 0 <= j < |keys|
      ensures Get(next, keys[j].1) == if j == n then Some(v) else Get(buyer, keys[j].1)
    {
      GetSet(buyer, dst, v, keys[j].1);
    }
    assert forall j :: 0 <= j < n + 1 ==> Get(next, keys[j].1) == BuyerValue(userInfo, keys, j);
    SetKeysWithin(buyer, dst, v, fields);
    SetKeepsDistinct(buyer, dst, v);
  }

  lemma SetKeysWithin<V>(d: seq<(string, V)>, k: string, v: V, fields: seq<string>)
    requires k in fields && forall k' :: k' in Keys(d) ==> k' in fields
    ensures forall k' :: k' in Keys(Set(d, k, v)) ==> k' in fields
  {
    KeysSet(d, k, v);
  }

  /** `get_buyer_info` on the order's user data: nothing without an email;
      otherwise the email and each optional field that is given. */
  method GetBuyerInfo(userInfo: Dict) returns (r: Option<Dict>)
    ensures r.None? <==> !Configured(userInfo, "email")
    ensures r.Some? ==> Get(r.value, "email") == Get(userInfo, "email")
    ensures r.Some? ==>
      forall i :: 0 <= i < |BuyerKeys| ==>
        Get(r.value, BuyerKeys[i].1)
          == if Configured(userInfo, BuyerKeys[i].0) then Get(userInfo, BuyerKeys[i].0) else None
    ensures r.Some? ==> DistinctKeys(r.value) && forall k :: k in Keys(r.value) ==> k in BuyerFields
  {
    var email := Get(userInfo, "email").GetOr(JNull);
    if !Truthy(email) {
      return None;
    }
    BuyerFieldsDistinct();
    var buyer: Dict := [("email", email)];
    var i := 0;
    while i < |BuyerKeys|
      invariant 0 <= i <= |BuyerKeys|
      invariant BuyerSoFar(userInfo, email, buyer, BuyerKeys, BuyerFields, i)
    {
      var (src, dst) := BuyerKeys[i];
      var v := Get(userInfo, src).GetOr(JNull);
      if Truthy(v) {
        BuyerStep(userInfo, email, buyer, BuyerKeys, BuyerFields, i);
        buyer := Set(buyer, dst, v);
      }
      i := i + 1;
    }
    return Some(buyer);
  }

  /* ---------------------------------------------------------------------
     Request headers
     --------------------------------------------------------------------- */

  /** A request's headers, looked up without regard to case: the value of
      the first header whose name matches. */
  function HeaderValue(headers: seq<(string, string)>, name: string): (r: Option<string>)
    ensures r.None? <==> forall i :: 0 <= i < |headers| ==> Lower(headers[i].0) != Lower(name)
    ensures r.Some? ==>
      exists i :: 0 <= i < |headers| && Lower(headers[i].0) == Lower(name) && r.value == headers[i].1
        && forall j :: 0 <= j < i ==> Lower(headers[j].0) != Lower(name)
    decreases |headers|
  {
    if headers == [] then None
    else if Lower(headers[0].0) == Lower(name) then Some(headers[0].1)
    else
      var r := HeaderValue(headers[1..], name);
      assert r.Some? ==>
        exists i :: 1 <= i < |headers| && Lower(headers[i].0) == Lower(name) && r.value == headers[i].1
          && forall j :: 0 <= j < i ==> Lower(headers[j].0) != Lower(name);
      r
  }

  const SignatureHeaderName := "Openpayu-Signature"
  const ProxiedSignatureHeaderName := "X-Openpayu-Signature"

  /** The raw signature header of a notification: the plain header when it
      is present and non-empty, otherwise the `X-` one, otherwise empty. */
  function SignatureHeader(headers: seq<(string, string)>): string {
    match HeaderValue(headers, SignatureHeaderName)
    case Some(v) => if v != "" then v else HeaderValue(headers, ProxiedSignatureHeaderName).GetOr("")
    case None => HeaderValue(headers, ProxiedSignatureHeaderName).GetOr("")
  }

  /** A notification signed the way PayU signs it, under either header
      name, is read back as it was sent and verifies. */
  lemma SignedNotificationVerified(body: string, secondKey: string, digest: Digest,
                                   algorithm: string, sender: string, proxied: bool)
    requires ResolveAlgorithm(algorithm).Some?
    requires ';' !in algorithm && '=' !in algorithm
    requires ';' !in sender && '=' !in sender
    ensures var field := SignatureField(Expected(digest, ResolveAlgorithm(algorithm).value, body, secondKey),
                                        algorithm, sender);
      var name := if proxied then ProxiedSignatureHeaderName else SignatureHeaderName;
      && SignatureHeader([(name, field)]) == field
      && CheckSignature(SignatureHeader([(name, field)]), body, secondKey, digest) == Verified
  {
    var field := SignatureField(Expected(digest, ResolveAlgorithm(algorithm).value, body, secondKey),
                                algorithm, sender);
    assert field != "" by { assert |field| >= |"signature="|; }
    assert |Lower(ProxiedSignatureHeaderName)| != |Lower(SignatureHeaderName)|;
    SignThenVerify(body, secondKey, digest, algorithm, sender);
  }

  /* ---------------------------------------------------------------------
     Outcomes
     --------------------------------------------------------------------- */

  datatype ProcessorError =
    | ClientFailed(error: ClientError)  // raised by the client
    | Raising(raised: Raised)           // raised while reading a response or by a transition
    | HeaderValueError                  // a signature header piece that is not `k=v`
    | AlgorithmError                    // no `hashlib` digest of that name
    | DecodeError                       // the notification body is not UTF-8
    | JsonError                         // the notification body is not JSON
    | FormFailed(form: FormError)
    | OrderIdNotString                  // `orderId` in a new order's response is not a string

  /** An HTTP reply of the notification handler. */
  datatype Reply = Reply(status: int, content: string)

  const NoSignatureReply := Reply(400, "NO SIGNATURE")
  const BadSignatureReply := Reply(422, "BAD SIGNATURE")
  const OkReply := Reply(200, "OK")

  /** What `fetch_payment_status` returns. */
  datatype StatusReport = StatusReport(rawResponse: Option<HttpResponse>, callback: Option<string>)

  /** What `prepare_lock` returns. */
  datatype LockResult = LockResult(rawResponse: Option<HttpResponse>, url: JVal, extOrderId: string)

  /** What `prepare_transaction` answers: a redirect, the POST form page,
      or nothing for an unknown paywall method. */
  datatype Page = Redirect(location: JVal) | PostForm | NoPage

  /** What `charge` returns; `success` stands for the `success` key. */
  datatype ChargeResult = ChargeResult(rawResponse: Option<HttpResponse>, statusDesc: JVal, success: bool)

  const SuccessCode := JStr("SUCCESS")
  const DefaultPaywallMethod := "REST"
  const DefaultFormAlgorithm := "SHA-256"
  const FormSignatureField := "OpenPayu-Signature"

  /** The `orderId` of a new order's response, `""` when absent. */
  function OrderIdOf(v: JVal): JVal
    requires v.JMap?
  {
    Get(v.entries, "orderId").GetOr(JStr(""))
  }

  /** What `prepare_lock` makes of `new_order`'s result from payment state
      `s`, given the client's last response. */
  function LockOf<S>(m: Machine<S>, s: S, result: Result<JVal, ClientError>, raw: Option<HttpResponse>)
    : (r: Result<LockResult, ProcessorError>)
    ensures result.Failure? ==> r == Failure(ClientFailed(result.error))
    ensures r.Success? <==>
      result.Success? && result.value.JMap? && m.canProceed(s, ConfirmPrepared) && OrderIdOf(result.value).JStr?
    ensures r.Success? ==>
      && r.value.rawResponse == raw
      && r.value.url == Get(result.value.entries, "redirectUri").GetOr(JNull)
      && JStr(r.value.extOrderId) == OrderIdOf(result.value)
  {
    match result
    case Failure(e) => Failure(ClientFailed(e))
    case Success(v) =>
      if !v.JMap? then Failure(Raising(AttributeError))
      else if !m.canProceed(s, ConfirmPrepared) then Failure(Raising(TransitionNotAllowed))
      else
        match OrderIdOf(v)
        case JStr(id) => Success(LockResult(raw, Get(v.entries, "redirectUri").GetOr(JNull), id))
        case _ => Failure(OrderIdNotString)
  }

  /** `response.get("status", {}).get(key)`. */
  function StatusField(response: JVal, key: string): (r: Result<JVal, Raised>)
    ensures r.Failure? <==>
      !response.JMap? || (Get(response.entries, "status").Some? && !Get(response.entries, "status").value.JMap?)
    ensures response.JMap? && Get(response.entries, "status").None? ==> r == Success(JNull)
    ensures r.Success? && r.value != JNull ==>
      Get(response.entries, "status").Some? && Field(Get(response.entries, "status").value, key) == Some(r.value)
    ensures r.Success? && Get(response.entries, "status").Some? ==>
      r.value == Field(Get(response.entries, "status").value, key).GetOr(JNull)
    ensures r.Failure? ==> r.error == AttributeError
  {
    if !response.JMap? then Failure(AttributeError)
    else GetOrNull(Get(response.entries, "status").GetOr(JMap([])), key)
  }

  /** The operation's status code is `SUCCESS`. */
  predicate Succeeded(response: JVal) {
    StatusField(response, "statusCode") == Success(SuccessCode)
  }

  /** The form fields `prepare_form_data` receives and fills in place. */
  class FormData {
    var fields: seq<(string, string)>

    /** Like every Python dict, the form has each key at most once. */
    predicate Valid()
      reads this
    {
      DistinctKeys(fields)
    }

    constructor (fields: seq<(string, string)>)
      requires DistinctKeys(fields)
      ensures this.fields == fields && Valid()
    {
      this.fields := fields;
    }
  }

  /** The form signature does not depend on the order the fields were
      inserted in. */
  lemma FormSignatureOrderIndependent(d1: seq<(string, string)>, d2: seq<(string, string)>,
                                      posId: int, secondKey: string, algorithm: string, digest: Digest)
    requires DistinctKeys(d1) && multiset(d1) == multiset(d2)
    ensures FormSignature(d1, posId, secondKey, algorithm, digest) == FormSignature(d2, posId, secondKey, algorithm, digest)
  {
    SigningOrderIndependent(d1, d2, secondKey);
  }

  /* ---------------------------------------------------------------------
     The processor object
     --------------------------------------------------------------------- */

  class PaymentProcessor<S> {
    const payment: Payment<S>
    const client: Client
    const settings: Settings
    /** The `hashlib` digests. */
    const digest: Digest

    constructor (payment: Payment<S>, client: Client, settings: Settings, digest: Digest)
      ensures this.payment == payment && this.client == client
      ensures this.settings == settings && this.digest == digest
    {
      this.payment := payment;
      this.client := client;
      this.settings := settings;
      this.digest := digest;
    }

    /** `prepare_form_data`: adds the signature field to `post` and leaves
        every other field as it was. */
    method PrepareFormData(post: FormData) returns (err: Option<FormError>)
      requires post.Valid()
      modifies post
      ensures post.Valid()
      ensures var f := FormSignature(old(post.fields), settings.posId, settings.secondKey,
                                     settings.algorithm.GetOr(DefaultFormAlgorithm), digest);
        && (f.Failure? ==> err == Some(f.error) && post.fields == old(post.fields))
        && (f.Success? ==> err.None? && post.fields == Set(old(post.fields), FormSignatureField, f.value))
      ensures err.None? ==>
        && (forall k :: k != FormSignatureField ==> Get(post.fields, k) == Get(old(post.fields), k))
        && Keys(post.fields)
             == if FormSignatureField in Keys(old(post.fields)) then Keys(old(post.fields))
                else Keys(old(post.fields)) + [FormSignatureField]
    {
      var algorithm := settings.algorithm.GetOr(DefaultFormAlgorithm);
      var f := FormSignature(post.fields, settings.posId, settings.secondKey, algorithm, digest);
      if f.Failure? {
        return Some(f.error);
      }
      forall k ensures Get(Set(post.fields, FormSignatureField, f.value), k)
                         == if k == FormSignatureField then Some(f.value) else Get(post.fields, k) {
        GetSet(post.fields, FormSignatureField, f.value, k);
      }
      KeysSet(post.fields, FormSignatureField, f.value);
      SetKeepsDistinct(post.fields, FormSignatureField, f.value);
      post.fields := Set(post.fields, FormSignatureField, f.value);
      err := None;
    }

    /** `fetch_payment_status`: the status of the payment's order, mapped to
        the callback to run, with the response it came in. */
    method FetchPaymentStatus(now: int, auth: HttpResponse, resp: HttpResponse)
      returns (sent: seq<HttpRequest>, r: Result<StatusReport, ProcessorError>)
      modifies client
      ensures var c := Perform(client.config, old(client.State()), now, auth,
                               BuildGetOrderInfo(payment.externalId, []), resp);
        && client.State() == c.state && sent == c.sent
        && (c.result.Failure? ==> r == Failure(ClientFailed(c.result.error)))
        && (c.result.Success? ==>
              r == match OrderStatusOf(c.result.value)
                   case Failure(e) => Failure(Raising(e))
                   case Success(status) => Success(StatusReport(Some(resp), PollCallback(status))))
    {
      ghost var st := old(client.State());
      var res;
      sent, res := client.GetOrderInfo(payment.externalId, [], now, auth, resp);
      PerformOrder(client.config, st, now, auth, BuildGetOrderInfo(payment.externalId, []), resp);
      if res.Failure? {
        return sent, Failure(ClientFailed(res.error));
      }
      var raw := client.lastResponse;
      var status := OrderStatusOf(res.value);
      if status.Failure? {
        return sent, Failure(Raising(status.error));
      }
      r := Success(StatusReport(raw, PollCallback(status.value)));
    }

    /** `prepare_lock`: registers the order and, once it is registered,
        moves the payment through `confirm_prepared` and records the
        order's id. */
    method PrepareLock(ctx: OrderArgs, now: int, auth: HttpResponse, resp: HttpResponse)
      returns (sent: seq<HttpRequest>, r: Result<LockResult, ProcessorError>)
      modifies client, payment`state, payment`history, payment`externalId
      ensures var c := Perform(client.config, old(client.State()), now, auth, BuildNewOrder(ctx, []), resp);
        && client.State() == c.state && sent == c.sent
        && r == LockOf(payment.machine, old(payment.state), c.result, c.state.lastResponse)
        && (r.Success? ==> r.value.rawResponse == Some(resp))
      ensures r.Success? ==>
        && payment.state == payment.machine.apply(old(payment.state), ConfirmPrepared)
        && payment.history == old(payment.history) + [ConfirmPrepared]
        && payment.externalId == r.value.extOrderId
      ensures r.Failure? ==>
        payment.state == old(payment.state) && payment.history == old(payment.history)
        && payment.externalId == old(payment.externalId)
    {
      ghost var st := old(client.State());
      var res;
      sent, res := client.NewOrder(ctx, [], now, auth, resp);
      PerformOrder(client.config, st, now, auth, BuildNewOrder(ctx, []), resp);
      if res.Failure? {
        return sent, Failure(ClientFailed(res.error));
      }
      var raw := client.lastResponse;
      var v := res.value;
      if !v.JMap? {
        return sent, Failure(Raising(AttributeError));
      }
      var url := Get(v.entries, "redirectUri").GetOr(JNull);
      if !payment.machine.canProceed(payment.state, ConfirmPrepared) {
        return sent, Failure(Raising(TransitionNotAllowed));
      }
      var orderId := OrderIdOf(v);
      if !orderId.JStr? {
        return sent, Failure(OrderIdNotString);
      }
      var ok := payment.Fire(ConfirmPrepared);
      payment.externalId := orderId.s;
      r := Success(LockResult(raw, url, orderId.s));
    }

    /** `prepare_transaction`. With the REST paywall method: lock the
        payment and redirect to the paywall, or on `LockFailure` fail the
        payment and redirect to the failure URL; the payment is saved in
        both cases. */
    method PrepareTransaction(ctx: OrderArgs, failureUrl: string, now: int, auth: HttpResponse, resp: HttpResponse)
      returns (sent: seq<HttpRequest>, r: Result<Page, ProcessorError>)
      modifies client, payment`state, payment`history, payment`externalId, payment`saved
      ensures Upper(settings.paywallMethod.GetOr(DefaultPaywallMethod)) != "REST" ==>
        && unchanged(client) && unchanged(payment) && sent == []
        && r == Success(if Upper(settings.paywallMethod.GetOr(DefaultPaywallMethod)) == "POST" then PostForm else NoPage)
      ensures Upper(settings.paywallMethod.GetOr(DefaultPaywallMethod)) == "REST" ==>
        var c := Perform(client.config, old(client.State()), now, auth, BuildNewOrder(ctx, []), resp);
        var lock := LockOf(payment.machine, old(payment.state), c.result, c.state.lastResponse);
        && client.State() == c.state && sent == c.sent
        && (lock.Success? ==>
              && r == Success(Redirect(lock.value.url))
              && payment.state == payment.machine.apply(old(payment.state), ConfirmPrepared)
              && payment.history == old(payment.history) + [ConfirmPrepared]
              && payment.externalId == lock.value.extOrderId)
        && (c.result.Failure? && c.result.error.LockFailure? ==>
              && payment.externalId == old(payment.externalId)
              && (payment.machine.canProceed(old(payment.state), Fail) ==>
                    && r == Success(Redirect(JStr(failureUrl)))
                    && payment.state == payment.machine.apply(old(payment.state), Fail)
                    && payment.history == old(payment.history) + [Fail])
              && (!payment.machine.canProceed(old(payment.state), Fail) ==>
                    r == Failure(Raising(TransitionNotAllowed))))
        && (lock.Failure? && !(c.result.Failure? && c.result.error.LockFailure?) ==> r == Failure(lock.error))
      ensures r.Success? && r.value.Redirect? ==>
        payment.saved == old(payment.saved) + [Record(payment.state, payment.externalId)]
      ensures !(r.Success? && r.value.Redirect?) ==>
        && payment.saved == old(payment.saved) && payment.state == old(payment.state)
        && payment.history == old(payment.history) && payment.externalId == old(payment.externalId)
    {
      var paywallMethod := Upper(settings.paywallMethod.GetOr(DefaultPaywallMethod));
      if paywallMethod != "REST" {
        sent := [];
        r := Success(if paywallMethod == "POST" then PostForm else NoPage);
        return;
      }
      var lock;
      sent, lock := PrepareLock(ctx, now, auth, resp);
      if lock.Success? {
        payment.Save();
        return sent, Success(Redirect(lock.value.url));
      }
      if lock.error.ClientFailed? && lock.error.error.LockFailure? {
        var ok := payment.Fire(Fail);
        if !ok {
          return sent, Failure(Raising(TransitionNotAllowed));
        }
        payment.Save();
        return sent, Success(Redirect(JStr(failureUrl)));
      }
      r := Failure(lock.error);
    }

    /** `charge`: captures the payment's order; `success` exactly when the
        capture's status code is `SUCCESS`. */
    method Charge(now: int, auth: HttpResponse, resp: HttpResponse)
      returns (sent: seq<HttpRequest>, r: Result<ChargeResult, ProcessorError>)
      modifies client
      ensures var c := Perform(client.config, old(client.State()), now, auth,
                               BuildCapture(payment.externalId, []), resp);
        && client.State() == c.state && sent == c.sent
        && (c.result.Failure? ==> r == Failure(ClientFailed(c.result.error)))
        && (c.result.Success? ==>
              match StatusField(c.result.value, "statusDesc")
              case Failure(e) => r == Failure(Raising(e))
              case Success(desc) =>
                r == Success(ChargeResult(Some(resp), desc, Succeeded(c.result.value))))
    {
      ghost var st := old(client.State());
      var res;
      sent, res := client.Capture(payment.externalId, [], now, auth, resp);
      PerformOrder(client.config, st, now, auth, BuildCapture(payment.externalId, []), resp);
      if res.Failure? {
        return sent, Failure(ClientFailed(res.error));
      }
      var desc := StatusField(res.value, "statusDesc");
      if desc.Failure? {
        return sent, Failure(Raising(desc.error));
      }
      var code := StatusField(res.value, "statusCode");
      r := Success(ChargeResult(client.lastResponse, desc.value, code == Success(SuccessCode)));
    }

    /** `release_lock`: cancels the payment's order and hands back the
        locked amount exactly when the cancellation's status code is
        `SUCCESS`. */
    method ReleaseLock(now: int, auth: HttpResponse, resp: HttpResponse)
      returns (sent: seq<HttpRequest>, r: Result<Option<real>, ProcessorError>)
      modifies client
      ensures var c := Perform(client.config, old(client.State()), now, auth,
                               BuildCancelOrder(payment.externalId, []), resp);
        && client.State() == c.state && sent == c.sent
        && (c.result.Failure? ==> r == Failure(ClientFailed(c.result.error)))
        && (c.result.Success? ==>
              match StatusField(c.result.value, "statusCode")
              case Failure(e) => r == Failure(Raising(e))
              case Success(_) =>
                r == Success(if Succeeded(c.result.value) then Some(payment.amountLocked) else None))
    {
      ghost var st := old(client.State());
      var res;
      sent, res := client.CancelOrder(payment.externalId, [], now, auth, resp);
      PerformOrder(client.config, st, now, auth, BuildCancelOrder(payment.externalId, []), resp);
      if res.Failure? {
        return sent, Failure(ClientFailed(res.error));
      }
      var code := StatusField(res.value, "statusCode");
      if code.Failure? {
        return sent, Failure(Raising(code.error));
      }
      if code.value == SuccessCode {
        return sent, Success(Some(payment.amountLocked));
      }
      r := Success(None);
    }

    /** The `"order"` branch of a verified notification, on the payment. */
    method HandleOrder(order: JVal) returns (error: Option<Raised>)
      modifies payment`state, payment`history
      ensures var run := OrderRun(payment.machine, old(payment.state), order);
        payment.state == run.state && payment.history == old(payment.history) + run.fired && error == run.error
    {
      var status := GetOrNull(order, "status");
      if status.Failure? {
        return Some(status.error);
      }
      if status.value == Completed {
        if payment.machine.canProceed(payment.state, ConfirmPayment) {
          var _ := payment.Fire(ConfirmPayment);
          if payment.machine.canProceed(payment.state, MarkAsPaid) {
            var _ := payment.Fire(MarkAsPaid);
          }
        }
      } else if status.value == Canceled {
        var ok := payment.Fire(Fail);
        if !ok {
          return Some(TransitionNotAllowed);
        }
      } else if status.value == WaitingForConfirmation {
        if payment.machine.canProceed(payment.state, ConfirmLock) {
          var _ := payment.Fire(ConfirmLock);
        }
      }
      return None;
    }

    /** The `"refund"` branch of a verified notification, on the payment. */
    method HandleRefund(refund: JVal) returns (error: Option<Raised>)
      modifies payment`state, payment`history
      ensures var run := RefundRun(payment.machine, old(payment.state), refund);
        payment.state == run.state && payment.history == old(payment.history) + run.fired && error == run.error
    {
      var status := GetOrNull(refund, "status");
      if status.Failure? {
        return Some(status.error);
      }
      if status.value == Finalized {
        var amount := Hundredth(Get(refund.entries, "amount").GetOr(JNull));
        if amount.Failure? {
          return Some(amount.error);
        }
        var ok := payment.Fire(ConfirmRefund(amount.value));
        if !ok {
          return Some(TransitionNotAllowed);
        }
        if payment.machine.canProceed(payment.state, MarkAsRefunded) {
          var _ := payment.Fire(MarkAsRefunded);
        }
      } else if status.value == Canceled {
        var ok := payment.Fire(CancelRefund);
        if !ok {
          return Some(TransitionNotAllowed);
        }
        if payment.machine.canProceed(payment.state, MarkAsPaid) {
          var _ := payment.Fire(MarkAsPaid);
        }
      }
      return None;
    }

    /** The dispatch of a verified notification body, on the payment. */
    method Dispatch(data: JVal) returns (error: Option<Raised>)
      modifies payment`state, payment`history
      ensures var run := PayloadRun(payment.machine, old(payment.state), data);
        payment.state == run.state && payment.history == old(payment.history) + run.fired && error == run.error
    {
      var hasOrder := In("order", data);
      if hasOrder.None? {
        return Some(TypeError);
      }
      if hasOrder.value {
        var order := GetOrNull(data, "order");
        if order.Failure? {
          return Some(order.error);
        }
        error := HandleOrder(order.value);
        return;
      }
      var hasRefund := In("refund", data);
      if hasRefund.None? {
        return Some(TypeError);
      }
      if !hasRefund.value {
        return None;
      }
      var refund := GetOrNull(data, "refund");
      if refund.Failure? {
        return Some(refund.error);
      }
      error := HandleRefund(refund.value);
    }

    /** `handle_paywall_callback`: a notification with its headers, its body
        and the body decoded as JSON (`None` when it is not JSON). Nothing
        runs and nothing is saved unless the signature verifies; a verified
        notification that raises nothing is saved and answered with OK. */
    method HandlePaywallCallback(headers: seq<(string, string)>, decoded: Option<string>, parsed: Option<JVal>)
      returns (r: Result<Reply, ProcessorError>)
      modifies payment`state, payment`history, payment`saved
      ensures var check := CheckSignature(SignatureHeader(headers), decoded.GetOr(""), settings.secondKey, digest);
        && (check == NoSignature ==>
              r == if decoded.Some? then Success(NoSignatureReply) else Failure(DecodeError))
        && (check == Malformed ==> r == Failure(HeaderValueError))
        && (check == UnknownAlgorithm ==> r == Failure(AlgorithmError))
        && ((check == Mismatch || check == Verified) && decoded.None? ==> r == Failure(DecodeError))
        && (check == Mismatch && decoded.Some? ==> r == Success(BadSignatureReply))
        && (check == Verified && decoded.Some? && parsed.None? ==> r == Failure(JsonError))
        && (check != Verified || decoded.None? || parsed.None? ==>
              payment.state == old(payment.state) && payment.history == old(payment.history))
        && (check == Verified && decoded.Some? && parsed.Some? ==>
              var run := PayloadRun(payment.machine, old(payment.state), parsed.value);
              && payment.state == run.state
              && payment.history == old(payment.history) + run.fired
              && r == if run.error.Some? then Failure(Raising(run.error.value)) else Success(OkReply))
      ensures payment.saved
              == if r == Success(OkReply) then old(payment.saved) + [Record(payment.state, payment.externalId)]
                 else old(payment.saved)
    {
      var raw := SignatureHeader(headers);
      var check := CheckSignature(raw, decoded.GetOr(""), settings.secondKey, digest);
      if check == NoSignature {
        if decoded.None? {
          return Failure(DecodeError);
        }
        return Success(NoSignatureReply);
      } else if check == Malformed {
        return Failure(HeaderValueError);
      } else if check == UnknownAlgorithm {
        return Failure(AlgorithmError);
      } else if decoded.None? {
        return Failure(DecodeError);
      } else if check == Mismatch {
        return Success(BadSignatureReply);
      }
      if parsed.None? {
        return Failure(JsonError);
      }
      var error := Dispatch(parsed.value);
      if error.Some? {
        return Failure(Raising(error.value));
      }
      payment.Save();
      r := Success(OkReply);
    }
  }
}

=== FILE: reconcile.dfy ===
/** How the processor turns what PayU reports about an order or a refund
    into transitions of the payment: the status mapping of
    `fetch_payment_status` (polling) and the dispatch of a verified
    notification in `handle_paywall_callback` (push). */
module Reconcile {
  import opened Wrappers
  import opened Json
  import opened Text
  import opened PaymentFsm

  /** The Python exceptions a malformed response or payload, or an
      unguarded transition, raises. */
  datatype Raised =
    | AttributeError        // `.get` on something that is not a dict
    | IndexError            // `[0]` of an empty list or string
    | KeyError              // `[0]` of a dict
    | TypeError             // `in`, `[0]` or `/` on a value that does not support it
    | TransitionNotAllowed  // an unguarded transition the payment does not allow

  /** The status values of PayU orders and refunds. */
  const New := JStr("NEW")
  const Pending := JStr("PENDING")
  const Completed := JStr("COMPLETED")
  const Canceled := JStr("CANCELED")
  const WaitingForConfirmation := JStr("WAITING_FOR_CONFIRMATION")
  const Finalized := JStr("FINALIZED")

  /** The name of the payment method each event calls. */
  function EventName(e: Event): string {
    match e
    case ConfirmPrepared => "confirm_prepared"
    case ConfirmLock => "confirm_lock"
    case ConfirmPayment => "confirm_payment"
    case MarkAsPaid => "mark_as_paid"
    case ConfirmRefund(_) => "confirm_refund"
    case CancelRefund => "cancel_refund"
    case MarkAsRefunded => "mark_as_refunded"
    case Fail => "fail"
  }

  /* ---------------------------------------------------------------------
     Polling
     --------------------------------------------------------------------- */

  /** `x.get(key)` on a decoded value: `None` becomes `JNull`, a value that
      is not a dict raises `AttributeError`. */
  function GetOrNull(x: JVal, key: string): (r: Result<JVal, Raised>)
    ensures r.Failure? <==> !x.JMap?
    ensures r.Success? ==> (r.value == JNull || key in Keys(x.entries))
    ensures r.Success? && key in Keys(x.entries) ==> Some(r.value) == Get(x.entries, key)
  {
    if x.JMap? then Success(Get(x.entries, key).GetOr(JNull)) else Failure(AttributeError)
  }

  /** `x[0]` on a decoded value. */
  function First(x: JVal): (r: Result<JVal, Raised>)
    ensures r.Success? <==> (x.JList? && x.items != []) || (x.JStr? && x.s != [])
    ensures r.Success? ==>
      || (x.JList? && x.items != [] && r.value == x.items[0])
      || (x.JStr? && x.s != [] && r.value == JStr([x.s[0]]))
    ensures r.Failure? ==>
      r.error == (if x.JList? || x.JStr? then IndexError else if x.JMap? then KeyError else TypeError)
  {
    match x
    case JList(xs) => if xs == [] then Failure(IndexError) else Success(xs[0])
    case JStr(s) => if s == [] then Failure(IndexError) else Success(JStr([s[0]]))
    case JMap(_) => Failure(KeyError)
    case _ => Failure(TypeError)
  }

  /** `response.get("orders", [None])[0].get("status")`: the status of the
      first order of a `get_order_info` response. */
  function OrderStatusOf(response: JVal): (r: Result<JVal, Raised>)
    ensures r.Success? <==>
      && response.JMap?
      && Get(response.entries, "orders").Some?
      && var orders := Get(response.entries, "orders").value;
         orders.JList? && orders.items != [] && orders.items[0].JMap?
    ensures r.Success? ==>
      r.value == Get(Get(response.entries, "orders").value.items[0].entries, "status").GetOr(JNull)
  {
    if !response.JMap? then Failure(AttributeError)
    else
      var orders := Get(response.entries, "orders").GetOr(JList([JNull]));
      match First(orders)
      case Failure(e) => Failure(e)
      case Success(order) => GetOrNull(order, "status")
  }

  /** The callback name `fetch_payment_status` reports for an order status. */
  function PollCallback(status: JVal): (r: Option<string>)
    ensures r == Some("confirm_prepared") <==> status == New || status == Pending
    ensures r == Some("fail") <==> status == Canceled
    ensures r == Some("confirm_payment") <==> status == Completed
    ensures r == Some("confirm_lock") <==> status == WaitingForConfirmation
    ensures r.None? <==> status !in {New, Pending, Canceled, Completed, WaitingForConfirmation}
  {
    if status == New then Some("confirm_prepared")
    else if status == Pending then Some("confirm_prepared")
    else if status == Canceled then Some("fail")
    else if status == Completed then Some("confirm_payment")
    else if status == WaitingForConfirmation then Some("confirm_lock")
    else None
  }

  /* ---------------------------------------------------------------------
     Push: dispatch of a verified notification
     --------------------------------------------------------------------- */

  /** The outcome of dispatching a notification from payment state `s`: the
      state reached, the transitions that ran, and the exception raised, if
      any. */
  datatype Run<S> = Run(state: S, fired: seq<Event>, error: Option<Raised>)

  function Quiet<S>(s: S): Run<S> { Run(s, [], None) }

  function Raise<S>(s: S, e: Raised): Run<S> { Run(s, [], Some(e)) }

  /** A guarded transition (`if can_proceed(...)`), then optionally a second
      guarded one that is only tried when the first ran. */
  function Guarded<S>(m: Machine<S>, s: S, e: Event, then_: Option<Event>): Run<S> {
    if !m.canProceed(s, e) then Quiet(s)
    else
      var s1 := m.apply(s, e);
      match then_
      case None => Run(s1, [e], None)
      case Some(e2) =>
        if m.canProceed(s1, e2) then Run(m.apply(s1, e2), [e, e2], None) else Run(s1, [e], None)
  }

  /** An unguarded transition, then a guarded one. */
  function Unguarded<S>(m: Machine<S>, s: S, e: Event, then_: Event): Run<S> {
    if !m.canProceed(s, e) then Raise(s, TransitionNotAllowed)
    else
      var s1 := m.apply(s, e);
      if m.canProceed(s1, then_) then Run(m.apply(s1, then_), [e, then_], None) else Run(s1, [e], None)
  }

  /** The `"order"` branch. */
  function OrderRun<S>(m: Machine<S>, s: S, order: JVal): Run<S> {
    match GetOrNull(order, "status")
    case Failure(e) => Raise(s, e)
    case Success(status) =>
      if status == Completed then Guarded(m, s, ConfirmPayment, Some(MarkAsPaid))
      else if status == Canceled then
        if m.canProceed(s, Fail) then Run(m.apply(s, Fail), [Fail], None) else Raise(s, TransitionNotAllowed)
      else if status == WaitingForConfirmation then Guarded(m, s, ConfirmLock, None)
      else Quiet(s)
  }

  /** `amount / 100` on a decoded value (a `bool` counts as 0 or 1). */
  function Hundredth(amount: JVal): (r: Result<real, Raised>)
    ensures r.Success? <==> amount.JNum? || amount.JBool?
    ensures amount.JNum? ==> r == Success(amount.n / 100.0)
    ensures amount.JBool? ==> r == Success(if amount.b then 0.01 else 0.0)
    ensures r.Failure? ==> r.error == TypeError
  {
    match amount
    case JNum(n) => Success(n / 100.0)
    case JBool(b) => Success(if b then 0.01 else 0.0)
    case _ => Failure(TypeError)
  }

  /** The `"refund"` branch. */
  function RefundRun<S>(m: Machine<S>, s: S, refund: JVal): Run<S> {
    match GetOrNull(refund, "status")
    case Failure(e) => Raise(s, e)
    case Success(status) =>
      if status == Finalized then
        match Hundredth(Get(refund.entries, "amount").GetOr(JNull))
        case Failure(e) => Raise(s, e)
        case Success(amount) => Unguarded(m, s, ConfirmRefund(amount), MarkAsRefunded)
      else if status == Canceled then Unguarded(m, s, CancelRefund, MarkAsPaid)
      else Quiet(s)
  }

  /** Python's `needle in data` for a decoded value; `None` is the
      `TypeError` of a value that supports no `in`. */
  function In(needle: string, data: JVal): Option<bool> {
    match data
    case JMap(m) => Some(needle in Keys(m))
    case JList(xs) => Some(JStr(needle) in xs)
    case JStr(t) => Some(Contains(t, needle))
    case _ => None
  }

  /** The dispatch of a verified notification body `data`. */
  function PayloadRun<S>(m: Machine<S>, s: S, data: JVal): Run<S> {
    match In("order", data)
    case None => Raise(s, TypeError)
    case Some(true) =>
      (match GetOrNull(data, "order")
       case Failure(e) => Raise(s, e)
       case Success(order) => OrderRun(m, s, order))
    case Some(false) =>
      match In("refund", data)
      case None => Raise(s, TypeError)
      case Some(true) =>
        (match GetOrNull(data, "refund")
         case Failure(e) => Raise(s, e)
         case Success(refund) => RefundRun(m, s, refund))
      case Some(false) => Quiet(s)
  }

  /* ---------------------------------------------------------------------
     Properties of the dispatch
     --------------------------------------------------------------------- */

  /** What every dispatch guarantees: each transition it runs is allowed in
      the state it runs from and the state reached is the one they lead to;
      a dispatch that raises has run nothing and left the state as it was;
      at most two transitions run, and a second one only after its first
      (`mark_as_paid` after `confirm_payment` or `cancel_refund`,
      `mark_as_refunded` after `confirm_refund`). */
  ghost predicate Sound<S>(m: Machine<S>, s: S, r: Run<S>) {
    && ValidTrace(m, s, r.fired, r.state)
    && (r.error.Some? ==> r.state == s && r.fired == [])
    && |r.fired| <= 2
    && (|r.fired| == 2 ==>
          || r.fired == [ConfirmPayment, MarkAsPaid]
          || r.fired == [CancelRefund, MarkAsPaid]
          || (r.fired[0].ConfirmRefund? && r.fired[1] == MarkAsRefunded))
    && (|r.fired| == 1 ==> r.fired[0] != MarkAsPaid && r.fired[0] != MarkAsRefunded)
  }

  lemma OneStep<S>(m: Machine<S>, s: S, e: Event)
    requires m.canProceed(s, e)
    ensures ValidTrace(m, s, [e], m.apply(s, e))
  {
    assert [e][1..] == [];
  }

  lemma TwoSteps<S>(m: Machine<S>, s: S, e1: Event, e2: Event)
    requires m.canProceed(s, e1) && m.canProceed(m.apply(s, e1), e2)
    ensures ValidTrace(m, s, [e1, e2], m.apply(m.apply(s, e1), e2))
  {
    OneStep(m, m.apply(s, e1), e2);
    assert [e1, e2][1..] == [e2];
  }

  lemma GuardedSound<S>(m: Machine<S>, s: S, e: Event, then_: Option<Event>)
    requires e != MarkAsPaid && e != MarkAsRefunded
    requires then_ == None || (e == ConfirmPayment && then_ == Some(MarkAsPaid))
    ensures Sound(m, s, Guarded(m, s, e, then_))
  {
    if m.canProceed(s, e) {
      OneStep(m, s, e);
      if then_.Some? && m.canProceed(m.apply(s, e), then_.value) {
        TwoSteps(m, s, e, then_.value);
      }
    }
  }

  lemma UnguardedSound<S>(m: Machine<S>, s: S, e: Event, then_: Event)
    requires (e.ConfirmRefund? && then_ == MarkAsRefunded) || (e == CancelRefund && then_ == MarkAsPaid)
    ensures Sound(m, s, Unguarded(m, s, e, then_))
  {
    if m.canProceed(s, e) {
      OneStep(m, s, e);
      if m.canProceed(m.apply(s, e), then_) {
        TwoSteps(m, s, e, then_);
      }
    }
  }

  lemma OrderRunSound<S>(m: Machine<S>, s: S, order: JVal)
    ensures Sound(m, s, OrderRun(m, s, order))
  {
    match GetOrNull(order, "status")
    case Failure(_) =>
    case Success(status) =>
      if status == Completed {
        GuardedSound(m, s, ConfirmPayment, Some(MarkAsPaid));
      } else if status == Canceled {
        if m.canProceed(s, Fail) { OneStep(m, s, Fail); }
      } else if status == WaitingForConfirmation {
        GuardedSound(m, s, ConfirmLock, None);
      }
  }

  lemma RefundRunSound<S>(m: Machine<S>, s: S, refund: JVal)
    ensures Sound(m, s, RefundRun(m, s, refund))
  {
    match GetOrNull(refund, "status")
    case Failure(_) =>
    case Success(status) =>
      if status == Finalized {
        match Hundredth(Get(refund.entries, "amount").GetOr(JNull))
        case Failure(_) =>
        case Success(amount) => UnguardedSound(m, s, ConfirmRefund(amount), MarkAsRefunded);
      } else if status == Canceled {
        UnguardedSound(m, s, CancelRefund, MarkAsPaid);
      }
  }

  /** Every verified notification is dispatched soundly. */
  lemma PayloadRunSound<S>(m: Machine<S>, s: S, data: JVal)
    ensures Sound(m, s, PayloadRun(m, s, data))
  {
    if In("order", data) == Some(true) && data.JMap? {
      OrderRunSound(m, s, Get(data.entries, "order").GetOr(JNull));
    } else if In("order", data) == Some(false) && In("refund", data) == Some(true) && data.JMap? {
      RefundRunSound(m, s, Get(data.entries, "refund").GetOr(JNull));
    }
  }

  /** Polling and pushing agree on the first transition of an order: when
      the push runs one, it is the one the poll names, and it runs whenever
      the payment allows it (the poll's `confirm_prepared` for NEW and
      PENDING has no push counterpart). */
  lemma PushAgreesWithPoll<S>(m: Machine<S>, s: S, order: JVal, status: JVal)
    requires order.JMap? && Get(order.entries, "status") == Some(status)
    ensures var r := OrderRun(m, s, order);
      && (r.fired != [] ==> PollCallback(status) == Some(EventName(r.fired[0])))
      && (status in {Completed, Canceled, WaitingForConfirmation} ==>
            forall e :: EventName(e) == PollCallback(status).value && m.canProceed(s, e) ==>
              r.fired != [] && r.fired[0] == e)
  {
  }

  /** A COMPLETED notification runs nothing, `confirm_payment`, or
      `confirm_payment` then `mark_as_paid`. */
  lemma CompletedFired<S>(m: Machine<S>, s: S, order: JVal)
    requires order.JMap? && Get(order.entries, "status") == Some(Completed)
    ensures var r := OrderRun(m, s, order);
      || (r.fired == [] && !m.canProceed(s, ConfirmPayment))
      || r.fired == [ConfirmPayment]
      || (r.fired == [ConfirmPayment, MarkAsPaid] && r.state == m.apply(m.apply(s, ConfirmPayment), MarkAsPaid))
  {
  }

  /** The hypothesis of `CompletedIdempotent` at one state. */
  lemma NoConfirmAfterPaid<S>(m: Machine<S>, x: S)
    requires forall y :: !m.canProceed(m.apply(y, MarkAsPaid), ConfirmPayment)
    ensures !m.canProceed(m.apply(x, MarkAsPaid), ConfirmPayment)
  {
  }

  /** Delivering the same COMPLETED notification twice runs `mark_as_paid`
      at most once, provided the payment never allows `confirm_payment`
      right after `mark_as_paid`. */
  lemma CompletedIdempotent<S>(m: Machine<S>, s: S, order: JVal)
    requires order.JMap? && Get(order.entries, "status") == Some(Completed)
    requires forall x :: !m.canProceed(m.apply(x, MarkAsPaid), ConfirmPayment)
    ensures var r1 := OrderRun(m, s, order);
      var r2 := OrderRun(m, r1.state, order);
      multiset(r1.fired + r2.fired)[MarkAsPaid] <= 1
  {
    var r1 := OrderRun(m, s, order);
    var r2 := OrderRun(m, r1.state, order);
    CompletedFired(m, s, order);
    CompletedFired(m, r1.state, order);
    if r1.fired == [ConfirmPayment, MarkAsPaid] {
      NoConfirmAfterPaid(m, m.apply(s, ConfirmPayment));
      assert |r1.fired| == 2;
      assert r1.fired + r2.fired == [ConfirmPayment, MarkAsPaid];
    } else {
      assert multiset(r1.fired)[MarkAsPaid] == 0;
      assert multiset(r2.fired)[MarkAsPaid] <= 1;
      assert multiset(r1.fired + r2.fired) == multiset(r1.fired) + multiset(r2.fired);
    }
  }

  /** The hypothesis of `FinalizedRefundTwice` at one state and amount. */
  lemma NoConfirmAfterRefunded<S>(m: Machine<S>, x: S, a: real)
    requires forall y, b :: !m.canProceed(m.apply(y, MarkAsRefunded), ConfirmRefund(b))
    ensures !m.canProceed(m.apply(x, MarkAsRefunded), ConfirmRefund(a))
  {
  }

  /** Delivering the same FINALIZED refund twice: when the first delivery
      ran `confirm_refund` and `mark_as_refunded`, and the payment never
      allows `confirm_refund` right after `mark_as_refunded`, the second
      delivery raises `TransitionNotAllowed` and changes nothing. */
  lemma FinalizedRefundTwice<S>(m: Machine<S>, s: S, refund: JVal)
    requires refund.JMap? && Get(refund.entries, "status") == Some(Finalized)
    requires forall y, b :: !m.canProceed(m.apply(y, MarkAsRefunded), ConfirmRefund(b))
    ensures var r1 := RefundRun(m, s, refund);
      |r1.fired| == 2 ==> RefundRun(m, r1.state, refund) == Raise(r1.state, TransitionNotAllowed)
  {
    var r1 := RefundRun(m, s, refund);
    if |r1.fired| == 2 {
      var amount := Hundredth(Get(refund.entries, "amount").GetOr(JNull));
      assert amount.Success?;
      var e := ConfirmRefund(amount.value);
      assert r1.state == m.apply(m.apply(s, e), MarkAsRefunded);
      NoConfirmAfterRefunded(m, m.apply(s, e), amount.value);
    }
  }
}

=== FILE: signature.dfy ===
/** The two sides of PayU's `OpenPayu-Signature`: the processor signs
    outgoing form fields, and it checks the signature header of incoming
    notifications. Digests themselves are not modelled: a `Digest` function
    is given, and only what is hashed and how the results are compared are. */
module Signature {
  import opened Wrappers
  import opened Json
  import opened Text

  /** The `hashlib` constructors that take one bytes argument and have a
      `hexdigest()` without arguments. */
  datatype HashAlg =
    | Md5 | Sha1 | Sha224 | Sha256 | Sha384 | Sha512
    | Blake2b | Blake2s | Sha3_224 | Sha3_256 | Sha3_384 | Sha3_512

  /** The attribute name of each constructor in `hashlib`. */
  function HashlibName(a: HashAlg): string {
    match a
    case Md5 => "md5"
    case Sha1 => "sha1"
    case Sha224 => "sha224"
    case Sha256 => "sha256"
    case Sha384 => "sha384"
    case Sha512 => "sha512"
    case Blake2b => "blake2b"
    case Blake2s => "blake2s"
    case Sha3_224 => "sha3_224"
    case Sha3_256 => "sha3_256"
    case Sha3_384 => "sha3_384"
    case Sha3_512 => "sha3_512"
  }

  function ByHashlibName(n: string): (r: Option<HashAlg>)
    ensures r.Some? ==> HashlibName(r.value) == n
    ensures forall a :: HashlibName(a) == n ==> r == Some(a)
  {
    if n == "md5" then Some(Md5)
    else if n == "sha1" then Some(Sha1)
    else if n == "sha224" then Some(Sha224)
    else if n == "sha256" then Some(Sha256)
    else if n == "sha384" then Some(Sha384)
    else if n == "sha512" then Some(Sha512)
    else if n == "blake2b" then Some(Blake2b)
    else if n == "blake2s" then Some(Blake2s)
    else if n == "sha3_224" then Some(Sha3_224)
    else if n == "sha3_256" then Some(Sha3_256)
    else if n == "sha3_384" then Some(Sha3_384)
    else if n == "sha3_512" then Some(Sha3_512)
    else None
  }

  /** `getattr(hashlib, name.replace("-", "").lower())` followed by a call
      on bytes: `None` stands for the `AttributeError` of a missing name and
      the `TypeError` of any other attribute. */
  function ResolveAlgorithm(name: string): (r: Option<HashAlg>)
    ensures r.Some? <==> exists a :: HashlibName(a) == Lower(Remove(name, '-'))
    ensures r.Some? ==> HashlibName(r.value) == Lower(Remove(name, '-'))
  {
    var r := ByHashlibName(Lower(Remove(name, '-')));
    assert r.Some? ==> HashlibName(r.value) == Lower(Remove(name, '-'));
    r
  }

  lemma UpperKeepsDash(s: string)
    ensures Remove(Upper(s), '-') == Upper(Remove(s, '-'))
    decreases |s|
  {
    if s != [] {
      UpperKeepsDash(s[1..]);
      assert Upper(s) == [UpperChar(s[0])] + Upper(s[1..]);
      var r := Remove(s, '-');
      assert r == (if s[0] == '-' then [] else [s[0]]) + Remove(s[1..], '-');
      assert Upper(r) == (if s[0] == '-' then [] else [UpperChar(s[0])]) + Upper(Remove(s[1..], '-'));
    }
  }

  lemma LowerOfUpper(s: string)
    ensures Lower(Upper(s)) == Lower(s)
  {
  }

  /** The configured algorithm name is read without regard to case: the
      name the form signer upper-cases resolves to the same constructor. */
  lemma ResolveUpper(name: string)
    ensures ResolveAlgorithm(Upper(name)) == ResolveAlgorithm(name)
  {
    UpperKeepsDash(name);
    LowerOfUpper(Remove(name, '-'));
  }

  /* ---------------------------------------------------------------------
     Hex digests
     --------------------------------------------------------------------- */

  type Byte = x: int | 0 <= x < 256

  /** The hash function: the digest of the UTF-8 encoding of a string. */
  type Digest = (HashAlg, string) -> seq<Byte>

  predicate IsLowerHex(c: char) { '0' <= c <= '9' || 'a' <= c <= 'f' }

  function LowerHexDigit(d: nat): (c: char)
    requires d < 16
    ensures IsLowerHex(c)
  {
    if d < 10 then (('0' as int) + d) as char else (('a' as int) + d - 10) as char
  }

  /** `hexdigest()`: two lower-case hex digits per byte. */
  function HexDigest(bs: seq<Byte>): (h: string)
    ensures |h| == 2 * |bs|
    ensures forall i :: 0 <= i < |h| ==> IsLowerHex(h[i])
  {
    if bs == [] then ""
    else [LowerHexDigit(bs[0] / 16), LowerHexDigit(bs[0] % 16)] + HexDigest(bs[1..])
  }

  /* ---------------------------------------------------------------------
     The signature header
     --------------------------------------------------------------------- */

  /** `k, v = piece.split("=")`: `None` is the `ValueError` of a piece with
      no `=` or more than one. */
  function ParsePair(piece: string): Option<(string, string)> {
    var parts := Split(piece, '=');
    if |parts| == 2 then Some((parts[0], parts[1])) else None
  }

  /** A piece parses exactly when it is two `=`-free strings joined by one `=`. */
  lemma ParsePairMeaning(piece: string, k: string, v: string)
    ensures ParsePair(piece) == Some((k, v)) <==> piece == k + "=" + v && '=' !in k && '=' !in v
  {
    var parts := Split(piece, '=');
    SplitThenJoin(piece, '=');
    if piece == k + "=" + v && '=' !in k && '=' !in v {
      JoinThenSplit([k, v], '=');
      assert Join([k, v], '=') == k + "=" + v;
    }
    if ParsePair(piece) == Some((k, v)) {
      assert parts == [k, v];
      assert parts[0] in parts && parts[1] in parts;
      assert Join(parts, '=') == k + "=" + v;
    }
  }

  /** The dict comprehension over the pieces: later pieces win. */
  function PairsToDict(pieces: seq<string>, acc: seq<(string, string)>): Option<seq<(string, string)>>
    decreases |pieces|
  {
    if pieces == [] then Some(acc)
    else
      match ParsePair(pieces[0])
      case None => None
      case Some((k, v)) => PairsToDict(pieces[1..], Set(acc, k, v))
  }

  /** `{k: v for k, v in [i.split("=") for i in raw.split(";")]}`. */
  function ParseHeader(raw: string): Option<seq<(string, string)>> {
    PairsToDict(Split(raw, ';'), [])
  }

  /** The header value the form signer writes. */
  function SignatureField(hex: string, algorithm: string, sender: string): string {
    "signature=" + hex + ";algorithm=" + algorithm + ";sender=" + sender
  }

  function Piece(k: string, v: string): string { k + "=" + v }

  lemma ParsePairOf(k: string, v: string)
    requires '=' !in k && '=' !in v
    ensures ParsePair(Piece(k, v)) == Some((k, v))
  {
    ParsePairMeaning(k + "=" + v, k, v);
  }

  /** The header is the three `k=v` pieces joined by `;`. */
  lemma SignatureFieldPieces(hex: string, algorithm: string, sender: string)
    ensures SignatureField(hex, algorithm, sender)
         == Join([Piece("signature", hex), Piece("algorithm", algorithm), Piece("sender", sender)], ';')
  {
    var p0, p1, p2 := Piece("signature", hex), Piece("algorithm", algorithm), Piece("sender", sender);
    assert [p0, p1, p2][1..] == [p1, p2];
    assert Join([p1, p2], ';') == p1 + ";" + p2 by {
      assert [p1, p2][1..] == [p2];
    }
    assert "signature" + "=" == "signature=";
    assert ";" + "algorithm" + "=" == ";algorithm=";
    assert ";" + "sender" + "=" == ";sender=";
  }

  lemma NoSemicolonInPiece(k: string, v: string)
    requires ';' !in k && ';' !in v
    ensures ';' !in Piece(k, v)
  {
  }

  /** One step of the dict comprehension over a well-formed piece. */
  lemma PairsToDictStep(pieces: seq<string>, acc: seq<(string, string)>, k: string, v: string)
    requires pieces != [] && pieces[0] == Piece(k, v) && '=' !in k && '=' !in v
    ensures PairsToDict(pieces, acc) == PairsToDict(pieces[1..], Set(acc, k, v))
  {
    ParsePairOf(k, v);
  }

  /** Splitting the header at `;` gives its three pieces. */
  lemma SplitSignatureField(hex: string, algorithm: string, sender: string)
    requires ';' !in hex && ';' !in algorithm && ';' !in sender
    ensures Split(SignatureField(hex, algorithm, sender), ';')
         == [Piece("signature", hex), Piece("algorithm", algorithm), Piece("sender", sender)]
  {
    var pieces := [Piece("signature", hex), Piece("algorithm", algorithm), Piece("sender", sender)];
    SignatureFieldPieces(hex, algorithm, sender);
    NoSemicolonInPiece("signature", hex);
    NoSemicolonInPiece("algorithm", algorithm);
    NoSemicolonInPiece("sender", sender);
    assert forall p :: p in pieces ==> ';' !in p;
    JoinThenSplit(pieces, ';');
  }

  /** The dict comprehension over three well-formed pieces with distinct keys. */
  lemma PairsOfThree(k0: string, v0: string, k1: string, v1: string, k2: string, v2: string)
    requires '=' !in k0 && '=' !in v0 && '=' !in k1 && '=' !in v1 && '=' !in k2 && '=' !in v2
    requires k0 != k1 && k0 != k2 && k1 != k2
    ensures PairsToDict([Piece(k0, v0), Piece(k1, v1), Piece(k2, v2)], [])
         == Some([(k0, v0), (k1, v1), (k2, v2)])
  {
    var p0, p1, p2 := Piece(k0, v0), Piece(k1, v1), Piece(k2, v2);
    var d1: seq<(string, string)> := [(k0, v0)];
    var d2 := d1 + [(k1, v1)];
    var d3 := d2 + [(k2, v2)];
    PairsToDictStep([p0, p1, p2], [], k0, v0);
    assert [p0, p1, p2][1..] == [p1, p2];
    assert PairsToDict([p0, p1, p2], []) == PairsToDict([p1, p2], d1);
    PairsToDictStep([p1, p2], d1, k1, v1);
    assert Keys(d1) == [k0];
    SetNew(d1, k1, v1);
    assert [p1, p2][1..] == [p2];
    assert PairsToDict([p1, p2], d1) == PairsToDict([p2], d2);
    PairsToDictStep([p2], d2, k2, v2);
    assert Keys(d2) == [k0, k1];
    SetNew(d2, k2, v2);
    assert [p2][1..] == [];
    assert PairsToDict([p2], d2) == PairsToDict([], d3);
    assert PairsToDict([], d3) == Some(d3);
    assert d3 == [(k0, v0), (k1, v1), (k2, v2)];
  }

  /** Parsing the header the form signer writes gives back its three
      fields, provided none of them contains `;` or `=`. */
  lemma ParseSignatureField(hex: string, algorithm: string, sender: string)
    requires ';' !in hex && '=' !in hex
    requires ';' !in algorithm && '=' !in algorithm
    requires ';' !in sender && '=' !in sender
    ensures ParseHeader(SignatureField(hex, algorithm, sender))
         == Some([("signature", hex), ("algorithm", algorithm), ("sender", sender)])
  {
    SplitSignatureField(hex, algorithm, sender);
    assert "signature"[0] != "algorithm"[0] && |"signature"| != |"sender"| && |"algorithm"| != |"sender"|;
    PairsOfThree("signature", hex, "algorithm", algorithm, "sender", sender);
  }

  /** What the notification handler decides from the signature header. */
  datatype Check =
    | NoSignature       // empty or absent header: 400
    | Malformed         // a piece that is not `k=v`: `ValueError`
    | UnknownAlgorithm  // `getattr` fails or the attribute is no digest
    | Mismatch          // 422
    | Verified

  const DefaultCallbackAlgorithm := "MD5"

  /** The expected signature of a notification body. */
  function Expected(digest: Digest, a: HashAlg, body: string, secondKey: string): string {
    HexDigest(digest(a, body + secondKey))
  }

  /** Checks a notification body against the raw signature header. */
  function CheckSignature(raw: string, body: string, secondKey: string, digest: Digest): (r: Check)
    ensures r == NoSignature <==> raw == ""
    ensures r == Verified ==> ParseHeader(raw).Some? && Get(ParseHeader(raw).value, "signature").Some?
    ensures r == Verified ==>
      exists a :: Get(ParseHeader(raw).value, "signature") == Some(Expected(digest, a, body, secondKey))
    ensures raw != "" ==> (r == Malformed <==> ParseHeader(raw).None?)
    ensures raw != "" && ParseHeader(raw).Some? ==>
      var h := ParseHeader(raw).value;
      var alg := ResolveAlgorithm(Get(h, "algorithm").GetOr(DefaultCallbackAlgorithm));
      && (r == UnknownAlgorithm <==> alg.None?)
      && (alg.Some? ==>
            && (r == Verified <==> Get(h, "signature") == Some(Expected(digest, alg.value, body, secondKey)))
            && (r != Verified ==> r == Mismatch))
  {
    if raw == "" then NoSignature
    else
      match ParseHeader(raw)
      case None => Malformed
      case Some(h) =>
        var name := Get(h, "algorithm").GetOr(DefaultCallbackAlgorithm);
        match ResolveAlgorithm(name)
        case None => UnknownAlgorithm
        case Some(a) =>
          if Get(h, "signature") == Some(Expected(digest, a, body, secondKey)) then Verified else Mismatch
  }

  lemma HexHasNoSeparators(h: string)
    requires forall i :: 0 <= i < |h| ==> IsLowerHex(h[i])
    ensures ';' !in h && '=' !in h
  {
  }

  /** A body signed with the shared key, and announced in the header format
      the form signer writes, passes the check. */
  lemma SignThenVerify(body: string, secondKey: string, digest: Digest, algorithm: string, sender: string)
    requires ResolveAlgorithm(algorithm).Some?
    requires ';' !in algorithm && '=' !in algorithm
    requires ';' !in sender && '=' !in sender
    ensures var a := ResolveAlgorithm(algorithm).value;
      CheckSignature(SignatureField(Expected(digest, a, body, secondKey), algorithm, sender), body, secondKey, digest)
        == Verified
  {
    var a := ResolveAlgorithm(algorithm).value;
    var hex := Expected(digest, a, body, secondKey);
    HexHasNoSeparators(hex);
    ParseSignatureField(hex, algorithm, sender);
    var h := [("signature", hex), ("algorithm", algorithm), ("sender", sender)];
    assert Get(h, "algorithm") == Some(algorithm);
    assert Get(h, "signature") == Some(hex);
  }

  /** The algorithm a notification falls back to is MD5. */
  lemma CallbackDefaultIsMd5()
    ensures ResolveAlgorithm(DefaultCallbackAlgorithm) == Some(Md5)
  {
    assert Remove(DefaultCallbackAlgorithm, '-') == "MD5";
    assert Lower("MD5") == "md5";
  }

  /** A header that announces no algorithm is checked against the MD5
      digest of the body followed by the key, and nothing else. */
  lemma UnannouncedAlgorithmIsMd5(raw: string, body: string, secondKey: string, digest: Digest)
    requires raw != "" && ParseHeader(raw).Some?
    requires "algorithm" !in Keys(ParseHeader(raw).value)
    ensures var r := CheckSignature(raw, body, secondKey, digest);
      && (r == Verified <==> Get(ParseHeader(raw).value, "signature") == Some(Expected(digest, Md5, body, secondKey)))
      && (r != Verified ==> r == Mismatch)
  {
    CallbackDefaultIsMd5();
  }

  /** A header made of the signature piece alone, carrying the MD5 digest,
      verifies. */
  lemma SignatureOnlyVerifies(body: string, secondKey: string, digest: Digest)
    ensures CheckSignature("signature=" + Expected(digest, Md5, body, secondKey), body, secondKey, digest) == Verified
  {
    var hex := Expected(digest, Md5, body, secondKey);
    var raw := "signature=" + hex;
    HexHasNoSeparators(hex);
    assert raw == Piece("signature", hex);
    assert ';' !in raw by {
      NoSemicolonInPiece("signature", hex);
    }
    JoinThenSplit([raw], ';');
    assert Join([raw], ';') == raw;
    ParsePairOf("signature", hex);
    assert PairsToDict([raw], []) == PairsToDict([], Set([], "signature", hex));
    assert ParseHeader(raw) == Some([("signature", hex)]);
    CallbackDefaultIsMd5();
  }

  /** A header without a `signature` piece never verifies: the check fails closed. */
  lemma MissingSignatureRejected(raw: string, body: string, secondKey: string, digest: Digest)
    requires ParseHeader(raw).Some? && Get(ParseHeader(raw).value, "signature").None?
    ensures CheckSignature(raw, body, secondKey, digest) != Verified
  {
  }

  /* ---------------------------------------------------------------------
     URL encoding (`urllib.parse.quote_plus` with `safe=''`)
     --------------------------------------------------------------------- */

  /** Characters `quote` never escapes. */
  predicate IsUnreserved(c: char) {
    'A' <= c <= 'Z' || 'a' <= c <= 'z' || '0' <= c <= '9' || c == '_' || c == '.' || c == '-' || c == '~'
  }

  /** Characters that can appear in a quoted value. */
  predicate IsQuotedChar(c: char) { IsUnreserved(c) || c == '+' || c == '%' }

  /** The UTF-8 encoding of one code point. */
  function Utf8(c: char): (bs: seq<Byte>)
    ensures 1 <= |bs| <= 4
  {
    var cp := c as int;
    if cp < 0x80 then [cp]
    else if cp < 0x800 then [0xC0 + cp / 64, 0x80 + cp % 64]
    else if cp < 0x10000 then [0xE0 + cp / 4096, 0x80 + (cp / 64) % 64, 0x80 + cp % 64]
    else [0xF0 + (cp / 262144) % 8, 0x80 + (cp / 4096) % 64, 0x80 + (cp / 64) % 64, 0x80 + cp % 64]
  }

  function UpperHexDigit(d: nat): (c: char)
    requires d < 16
    ensures IsUnreserved(c)
  {
    if d < 10 then (('0' as int) + d) as char else (('A' as int) + d - 10) as char
  }

  /** `%XX` for every byte. */
  function PercentEncode(bs: seq<Byte>): (r: string)
    ensures forall i :: 0 <= i < |r| ==> IsQuotedChar(r[i])
    ensures |r| == 3 * |bs|
  {
    if bs == [] then ""
    else ['%', UpperHexDigit(bs[0] / 16), UpperHexDigit(bs[0] % 16)] + PercentEncode(bs[1..])
  }

  /** Each byte becomes `%` followed by its two upper-case hex digits. */
  lemma {:induction false} PercentEncodeEscapes(bs: seq<Byte>, i: nat)
    requires i < |bs|
    ensures var r := PercentEncode(bs);
      r[3 * i] == '%' && r[3 * i + 1] == UpperHexDigit(bs[i] / 16) && r[3 * i + 2] == UpperHexDigit(bs[i] % 16)
    decreases i
  {
    if i > 0 {
      PercentEncodeEscapes(bs[1..], i - 1);
      var head := ['%', UpperHexDigit(bs[0] / 16), UpperHexDigit(bs[0] % 16)];
      assert PercentEncode(bs) == head + PercentEncode(bs[1..]);
      assert bs[1..][i - 1] == bs[i];
    }
  }

  function QuoteChar(c: char): (r: string)
    ensures forall i :: 0 <= i < |r| ==> IsQuotedChar(r[i])
  {
    if IsUnreserved(c) then [c]
    else if c == ' ' then "+"
    else PercentEncode(Utf8(c))
  }

  /** `quote_plus(s, safe="")`. */
  function QuotePlus(s: string): (r: string)
    ensures forall i :: 0 <= i < |r| ==> IsQuotedChar(r[i])
  {
    if s == [] then "" else QuoteChar(s[0]) + QuotePlus(s[1..])
  }

  /** Quoting leaves a string of unreserved characters as it is. */
  lemma {:induction false} QuoteUnreserved(s: string)
    requires forall i :: 0 <= i < |s| ==> IsUnreserved(s[i])
    ensures QuotePlus(s) == s
  {
    if s != [] {
      QuoteUnreserved(s[1..]);
      assert s == [s[0]] + s[1..];
    }
  }

  predicate IsAscii(s: string) { forall i :: 0 <= i < |s| ==> s[i] as int < 128 }

  /** One `k=v` item of `urlencode`. */
  function EncodePair(p: (string, string)): string {
    QuotePlus(p.0) + "=" + QuotePlus(p.1)
  }

  /** `urlencode(pairs)`: the quoted items joined by `&`; the result is ASCII. */
  function UrlEncode(ps: seq<(string, string)>): (r: string)
    ensures IsAscii(r)
  {
    if ps == [] then ""
    else if |ps| == 1 then EncodePair(ps[0])
    else EncodePair(ps[0]) + "&" + UrlEncode(ps[1..])
  }

  /* ---------------------------------------------------------------------
     `sorted(post_data.items())`
     --------------------------------------------------------------------- */

  predicate SortedByKey(s: seq<(string, string)>) {
    forall i, j :: 0 <= i < j < |s| ==> StrLe(s[i].0, s[j].0)
  }

  /** Inserts an item in front of the first one with a greater or equal key. */
  function Insert(p: (string, string), s: seq<(string, string)>): (r: seq<(string, string)>)
    ensures multiset(r) == multiset(s) + multiset{p}
    ensures forall k :: k in Keys(r) <==> k == p.0 || k in Keys(s)
  {
    if s == [] then
      assert [p][1..] == [];
      [p]
    else if StrLe(p.0, s[0].0) then
      assert ([p] + s)[1..] == s;
      [p] + s
    else
      var t := Insert(p, s[1..]);
      assert ([s[0]] + t)[1..] == t;
      assert Keys(s) == [s[0].0] + Keys(s[1..]);
      assert s == [s[0]] + s[1..];
      [s[0]] + t
  }

  lemma {:induction false} InsertSorted(p: (string, string), s: seq<(string, string)>)
    requires SortedByKey(s)
    ensures SortedByKey(Insert(p, s))
    decreases |s|
  {
    if s == [] {
    } else if StrLe(p.0, s[0].0) {
      forall j | 0 <= j < |s| ensures StrLe(p.0, s[j].0) {
        if j > 0 { StrLeTransitive(p.0, s[0].0, s[j].0); }
      }
      ConsSorted(p, s);
    } else {
      StrLeTotal(p.0, s[0].0);
      InsertSorted(p, s[1..]);
      var t := Insert(p, s[1..]);
      forall j | 0 <= j < |t| ensures StrLe(s[0].0, t[j].0) {
        assert t[j] in multiset(t);
        assert t[j] == p || t[j] in multiset(s[1..]);
        if t[j] != p {
          var m :| 0 <= m < |s[1..]| && s[1..][m] == t[j];
          assert s[m + 1] == t[j];
        }
      }
      ConsSorted(s[0], t);
    }
  }

  /** An item whose key is at most every key of a sorted sequence can go
      in front of it. */
  lemma ConsSorted(p: (string, string), s: seq<(string, string)>)
    requires SortedByKey(s) && forall j :: 0 <= j < |s| ==> StrLe(p.0, s[j].0)
    ensures SortedByKey([p] + s)
  {
    forall i, j | 0 <= i < j < |[p] + s| ensures StrLe(([p] + s)[i].0, ([p] + s)[j].0) {
      if i == 0 {
        assert ([p] + s)[j] == s[j - 1];
      } else {
        assert ([p] + s)[i] == s[i - 1] && ([p] + s)[j] == s[j - 1];
      }
    }
  }

  lemma {:induction false} InsertDistinct(p: (string, string), s: seq<(string, string)>)
    requires DistinctKeys(s) && p.0 !in Keys(s)
    ensures DistinctKeys(Insert(p, s))
    decreases |s|
  {
    if s == [] {
      assert Insert(p, s) == [p];
    } else if StrLe(p.0, s[0].0) {
      ConsDistinct(p, s);
    } else {
      DistinctTail(s);
      assert Keys(s)[0] == s[0].0;
      InsertDistinct(p, s[1..]);
      ConsDistinct(s[0], Insert(p, s[1..]));
    }
  }

  /** The tail of a dict's entries has distinct keys, none of them the
      head's key. */
  lemma DistinctTail(d: seq<(string, string)>)
    requires d != [] && DistinctKeys(d)
    ensures DistinctKeys(d[1..]) && d[0].0 !in Keys(d[1..])
  {
    forall m | 0 <= m < |d[1..]| ensures Keys(d[1..])[m] != d[0].0 {
      assert d[1..][m] == d[m + 1];
    }
  }

  /** An item whose key is new can go in front of entries with distinct keys. */
  lemma ConsDistinct(p: (string, string), s: seq<(string, string)>)
    requires DistinctKeys(s) && p.0 !in Keys(s)
    ensures DistinctKeys([p] + s)
  {
    forall i, j | 0 <= i < j < |[p] + s| ensures ([p] + s)[i].0 != ([p] + s)[j].0 {
      if i == 0 {
        assert ([p] + s)[j].0 == Keys(s)[j - 1];
      } else {
        assert ([p] + s)[i] == s[i - 1] && ([p] + s)[j] == s[j - 1];
      }
    }
  }

  /** `sorted(items)`: the items ordered by key, as the same multiset. */
  function SortByKey(d: seq<(string, string)>): (r: seq<(string, string)>)
    ensures multiset(r) == multiset(d)
    ensures SortedByKey(r)
    ensures forall k :: k in Keys(r) <==> k in Keys(d)
    ensures DistinctKeys(d) ==> DistinctKeys(r)
  {
    if d == [] then []
    else
      var rest := SortByKey(d[1..]);
      InsertSorted(d[0], rest);
      InsertStep(d, rest);
      Insert(d[0], rest)
  }

  /** The facts about one insertion step of `SortByKey`. */
  lemma InsertStep(d: seq<(string, string)>, rest: seq<(string, string)>)
    requires d != []
    requires multiset(rest) == multiset(d[1..])
    requires forall k :: k in Keys(rest) <==> k in Keys(d[1..])
    requires DistinctKeys(d[1..]) ==> DistinctKeys(rest)
    ensures multiset(Insert(d[0], rest)) == multiset(d)
    ensures forall k :: k in Keys(Insert(d[0], rest)) <==> k in Keys(d)
    ensures DistinctKeys(d) ==> DistinctKeys(Insert(d[0], rest))
  {
    assert d == [d[0]] + d[1..];
    assert Keys(d) == [d[0].0] + Keys(d[1..]);
    if DistinctKeys(d) {
      DistinctTail(d);
      InsertDistinct(d[0], rest);
    }
  }

  /** Two key-sorted sequences holding the same items, the first with
      distinct keys, start with the same item. */
  lemma SortedHeads(a: seq<(string, string)>, b: seq<(string, string)>)
    requires SortedByKey(a) && SortedByKey(b) && DistinctKeys(a)
    requires multiset(a) == multiset(b) && a != []
    ensures b != [] && a[0] == b[0]
  {
    assert |b| == |a| by { assert |multiset(b)| == |multiset(a)|; }
    assert b[0] in multiset(a) by { assert b[0] in multiset(b); }
    assert a[0] in multiset(b) by { assert a[0] in multiset(a); }
    var k :| 0 <= k < |a| && a[k] == b[0];
    var m :| 0 <= m < |b| && b[m] == a[0];
    if k != 0 && m != 0 {
      assert StrLe(a[0].0, a[k].0) && StrLe(b[0].0, b[m].0);
      StrLeAntisymmetric(a[0].0, b[0].0);
    }
    assert a[k].0 == a[0].0;
  }

  lemma TailMultiset<T>(a: seq<T>)
    requires a != []
    ensures multiset(a[1..]) == multiset(a) - multiset{a[0]}
  {
    assert a == [a[0]] + a[1..];
  }

  /** Two key-sorted sequences holding the same items, with distinct keys,
      are equal: there is only one sorted order. */
  lemma {:induction false} SortedUnique(a: seq<(string, string)>, b: seq<(string, string)>)
    requires SortedByKey(a) && SortedByKey(b) && DistinctKeys(a)
    requires multiset(a) == multiset(b)
    ensures a == b
    decreases |a|
  {
    if a != [] {
      SortedHeads(a, b);
      TailMultiset(a);
      TailMultiset(b);
      SortedUnique(a[1..], b[1..]);
      assert a == [a[0]] + a[1..] && b == [b[0]] + b[1..];
    } else {
      assert |b| == 0 by { assert |multiset(b)| == |multiset(a)|; }
    }
  }

  /** `f"{urlencode(sorted(fields))}&{second_key}".encode("ascii")`:
      `None` is the `UnicodeEncodeError` of a key that is not ASCII; the
      encoded fields never cause one. */
  function SigningInput(fields: seq<(string, string)>, secondKey: string): (r: Option<string>)
    ensures r.Some? <==> IsAscii(secondKey)
    ensures r.Some? ==> IsAscii(r.value)
  {
    var e := UrlEncode(SortByKey(fields));
    var s := e + "&" + secondKey;
    AsciiConcat(e, "&");
    AsciiConcat(e + "&", secondKey);
    if IsAscii(s) then Some(s) else None
  }

  lemma AsciiConcat(a: string, b: string)
    ensures IsAscii(a + b) <==> IsAscii(a) && IsAscii(b)
  {
    if IsAscii(a + b) {
      forall i | 0 <= i < |a| ensures a[i] as int < 128 {
        assert (a + b)[i] == a[i];
      }
      forall i | 0 <= i < |b| ensures b[i] as int < 128 {
        assert (a + b)[|a| + i] == b[i];
      }
    }
    if IsAscii(a) && IsAscii(b) {
      forall i | 0 <= i < |a + b| ensures (a + b)[i] as int < 128 {
        if i >= |a| { assert (a + b)[i] == b[i - |a|]; }
      }
    }
  }

  /** The signing input depends on the set of fields only, not on the order
      in which they were inserted. */
  lemma SigningOrderIndependent(d1: seq<(string, string)>, d2: seq<(string, string)>, secondKey: string)
    requires DistinctKeys(d1) && multiset(d1) == multiset(d2)
    ensures SigningInput(d1, secondKey) == SigningInput(d2, secondKey)
  {
    SortedUnique(SortByKey(d1), SortByKey(d2));
  }

  datatype FormError = FormUnknownAlgorithm | FormKeyNotAscii

  /** The value `prepare_form_data` stores under `OpenPayu-Signature`, or the
      exception it raises first. */
  function FormSignature(fields: seq<(string, string)>, posId: int, secondKey: string,
                         algorithmSetting: string, digest: Digest): (r: Result<string, FormError>)
    ensures r.Failure? <==> ResolveAlgorithm(algorithmSetting).None? || !IsAscii(secondKey)
    ensures r.Success? ==>
      ParseHeader(r.value)
        == Some([("signature", HexDigest(digest(ResolveAlgorithm(algorithmSetting).value,
                                                SigningInput(fields, secondKey).value))),
                 ("algorithm", Upper(algorithmSetting)),
                 ("sender", IntToString(posId))])
    ensures r.Success? ==>
      r.value == SignatureField(HexDigest(digest(ResolveAlgorithm(algorithmSetting).value,
                                                 SigningInput(fields, secondKey).value)),
                                Upper(algorithmSetting), IntToString(posId))
  {
    var algorithm := Upper(algorithmSetting);
    ResolveUpper(algorithmSetting);
    match ResolveAlgorithm(algorithm)
    case None => Failure(FormUnknownAlgorithm)
    case Some(a) =>
      match SigningInput(fields, secondKey)
      case None => Failure(FormKeyNotAscii)
      case Some(input) =>
        var hex := HexDigest(digest(a, input));
        HexHasNoSeparators(hex);
        SenderHasNoSeparators(posId);
        AlgorithmHasNoSeparators(algorithm);
        ParseSignatureField(hex, algorithm, IntToString(posId));
        Success(SignatureField(hex, algorithm, IntToString(posId)))
  }

  lemma SenderHasNoSeparators(posId: int)
    ensures ';' !in IntToString(posId) && '=' !in IntToString(posId)
  {
    var s := IntToString(posId);
    var t := NatToString(if posId < 0 then -posId else posId);
    forall i | 0 <= i < |s| ensures s[i] != ';' && s[i] != '=' {
      if posId < 0 && i > 0 {
        assert s[i] == t[i - 1] && IsDigit(t[i - 1]);
      } else if posId >= 0 {
        assert s[i] == t[i] && IsDigit(t[i]);
      }
    }
  }

  /** An algorithm name that resolves contains only letters, digits, `_`
      and `-`. */
  lemma AlgorithmHasNoSeparators(name: string)
    requires ResolveAlgorithm(name).Some?
    ensures ';' !in name && '=' !in name
  {
    HashlibNameUnreserved(ResolveAlgorithm(name).value);
    NoSeparatorsBeforeLower(Remove(name, '-'));
    if ';' in name { RemoveKeeps(name, '-', ';'); }
    if '=' in name { RemoveKeeps(name, '-', '='); }
  }

  lemma HashlibNameUnreserved(a: HashAlg)
    ensures forall i :: 0 <= i < |HashlibName(a)| ==> IsUnreserved(HashlibName(a)[i])
  {
  }

  lemma NoSeparatorsBeforeLower(s: string)
    requires forall i :: 0 <= i < |Lower(s)| ==> IsUnreserved(Lower(s)[i])
    ensures ';' !in s && '=' !in s
  {
    forall i | 0 <= i < |s| ensures s[i] != ';' && s[i] != '=' {
      assert IsUnreserved(Lower(s)[i]);
    }
  }

  /** Removing one character keeps every other character. */
  lemma RemoveKeeps(s: string, c: char, d: char)
    requires c != d && d in s
    ensures d in Remove(s, c)
    decreases |s|
  {
    if s[0] != d {
      RemoveKeeps(s[1..], c, d);
    }
  }
}

=== FILE: text.dfy ===
/** The handful of Python string operations the client and the processor rely
    on: `str(int)`, `int(str)`, `Decimal(str)`, ASCII case mapping,
    `str.split`, substring tests and the ordering `sorted` uses on strings. */
module Text {
  import opened Wrappers

  predicate IsDigit(c: char) { '0' <= c <= '9' }

  predicate AllDigits(s: string) { forall i :: 0 <= i < |s| ==> IsDigit(s[i]) }

  function DigitValue(c: char): nat
    requires IsDigit(c)
  {
    (c as int) - ('0' as int)
  }

  function DigitChar(d: nat): char
    requires d < 10
  {
    (('0' as int) + d) as char
  }

  function Pow10(n: nat): (p: nat)
    ensures p > 0
  {
    if n == 0 then 1 else 10 * Pow10(n - 1)
  }

  /** The value of a string of decimal digits. */
  function DigitsValue(s: string): nat
    requires AllDigits(s)
  {
    if s == [] then 0 else 10 * DigitsValue(s[..|s| - 1]) + DigitValue(s[|s| - 1])
  }

  /** Python `str(n)` for a natural number. */
  function NatToString(n: nat): (s: string)
    ensures |s| > 0 && AllDigits(s)
  {
    if n < 10 then [DigitChar(n)] else NatToString(n / 10) + [DigitChar(n % 10)]
  }

  /** Python `str(i)` for an integer. */
  function IntToString(i: int): string {
    if i < 0 then "-" + NatToString(-i) else NatToString(i)
  }

  /** Reading back the digits `str` writes gives the number again. */
  lemma {:induction false} DigitsOfNatToString(n: nat)
    ensures DigitsValue(NatToString(n)) == n
  {
    if n >= 10 {
      DigitsOfNatToString(n / 10);
      var s := NatToString(n);
      assert s[..|s| - 1] == NatToString(n / 10);
    }
  }

  /** Python `int(s)` for strings of the form `[+-]digits`; every other
      string is rejected (`None` stands for the `ValueError`). */
  function ParseInt(s: string): Option<int> {
    if |s| > 0 && (s[0] == '+' || s[0] == '-') then
      var t := s[1..];
      if |t| > 0 && AllDigits(t) then
        Some(if s[0] == '-' then -(DigitsValue(t) as int) else DigitsValue(t))
      else None
    else if |s| > 0 && AllDigits(s) then Some(DigitsValue(s))
    else None
  }

  lemma ParseIntOfIntToString(i: int)
    ensures ParseInt(IntToString(i)) == Some(i)
  {
    if i < 0 {
      DigitsOfNatToString(-i);
      assert IntToString(i)[1..] == NatToString(-i);
    } else {
      DigitsOfNatToString(i);
    }
  }

  /** The position of the first `c` in `s`. */
  function IndexOf(s: string, c: char): (i: nat)
    requires c in s
    ensures i < |s| && s[i] == c && c !in s[..i]
  {
    if s[0] == c then 0 else 1 + IndexOf(s[1..], c)
  }

  /** Python `Decimal(s)` for strings of the form `[+-]digits[.digits]`
      (at least one digit); every other string is rejected. */
  function ParseDecimal(s: string): Option<real> {
    if |s| > 0 && (s[0] == '+' || s[0] == '-') then
      match ParseUnsignedDecimal(s[1..])
      case Some(v) => Some(if s[0] == '-' then -v else v)
      case None => None
    else ParseUnsignedDecimal(s)
  }

  function ParseUnsignedDecimal(s: string): Option<real> {
    if '.' in s then
      var i := IndexOf(s, '.');
      var whole, frac := s[..i], s[i + 1..];
      if AllDigits(whole) && AllDigits(frac) && |whole| + |frac| > 0 then
        Some(DigitsValue(whole) as real + DigitsValue(frac) as real / Pow10(|frac|) as real)
      else None
    else if |s| > 0 && AllDigits(s) then Some(DigitsValue(s) as real)
    else None
  }

  /** `Decimal(str(i)) == i`: the integer strings the converter writes are
      read back exactly. */
  lemma ParseDecimalOfIntToString(i: int)
    ensures ParseDecimal(IntToString(i)) == Some(i as real)
  {
    if i < 0 {
      var t := NatToString(-i);
      DigitsOfNatToString(-i);
      assert IntToString(i)[1..] == t;
    } else {
      var t := NatToString(i);
      DigitsOfNatToString(i);
    }
  }

  /** Python `s * n`. */
  function Repeat(s: string, n: nat): string {
    if n == 0 then "" else s + Repeat(s, n - 1)
  }

  /** ASCII case mapping; other characters are left as they are. */
  function UpperChar(c: char): char {
    if 'a' <= c <= 'z' then ((c as int) - 32) as char else c
  }

  function LowerChar(c: char): char {
    if 'A' <= c <= 'Z' then ((c as int) + 32) as char else c
  }

  function Upper(s: string): string {
    seq(|s|, i requires 0 <= i < |s| => UpperChar(s[i]))
  }

  function Lower(s: string): string {
    seq(|s|, i requires 0 <= i < |s| => LowerChar(s[i]))
  }

  /** Python `str.capitalize`: first character upper case, the rest lower. */
  function Capitalize(s: string): string {
    if s == [] then [] else [UpperChar(s[0])] + Lower(s[1..])
  }

  /** Python `s.replace(c, "")` for a single character. */
  function Remove(s: string, c: char): (r: string)
    ensures c !in r
  {
    if s == [] then []
    else (if s[0] == c then [] else [s[0]]) + Remove(s[1..], c)
  }

  /** Python `s.split(c)`: always at least one piece, empty pieces kept. */
  function Split(s: string, c: char): (parts: seq<string>)
    ensures |parts| > 0
    decreases |s|
  {
    if c !in s then [s]
    else
      var i := IndexOf(s, c);
      [s[..i]] + Split(s[i + 1..], c)
  }

  /** Python `c.join(parts)`. */
  function Join(parts: seq<string>, c: char): string {
    if parts == [] then ""
    else if |parts| == 1 then parts[0]
    else parts[0] + [c] + Join(parts[1..], c)
  }

  /** `split` cuts exactly at the separators: joining the pieces restores
      the string and no piece contains the separator. */
  lemma {:induction false} SplitThenJoin(s: string, c: char)
    ensures Join(Split(s, c), c) == s
    ensures forall p :: p in Split(s, c) ==> c !in p
    decreases |s|
  {
    if c in s {
      var i := IndexOf(s, c);
      SplitThenJoin(s[i + 1..], c);
      assert s == s[..i] + [c] + s[i + 1..];
    }
  }

  /** Joining separator-free pieces and splitting again gives the pieces. */
  lemma {:induction false} JoinThenSplit(parts: seq<string>, c: char)
    requires |parts| > 0
    requires forall p :: p in parts ==> c !in p
    ensures Split(Join(parts, c), c) == parts
    decreases |parts|
  {
    if |parts| > 1 {
      var s := Join(parts, c);
      var rest := Join(parts[1..], c);
      assert s == parts[0] + [c] + rest;
      assert s[|parts[0]|] == c;
      assert c in s;
      var i := IndexOf(s, c);
      assert parts[0] in parts;
      assert s[..i] == parts[0];
      assert s[i + 1..] == rest;
      assert forall p :: p in parts[1..] ==> p in parts;
      JoinThenSplit(parts[1..], c);
    } else {
      assert parts[0] in parts;
    }
  }

  predicate IsPrefix(p: string, s: string) {
    |p| <= |s| && s[..|p|] == p
  }

  /** Python `sub in s` for strings. */
  predicate Contains(s: string, sub: string)
    decreases |s|
  {
    IsPrefix(sub, s) || (s != [] && Contains(s[1..], sub))
  }

  /** Python's `<=` on strings: lexicographic by code point. */
  predicate StrLe(a: string, b: string) {
    a == [] || (b != [] && (a[0] < b[0] || (a[0] == b[0] && StrLe(a[1..], b[1..]))))
  }

  lemma {:induction false} StrLeTotal(a: string, b: string)
    ensures StrLe(a, b) || StrLe(b, a)
  {
    if a != [] && b != [] && a[0] == b[0] {
      StrLeTotal(a[1..], b[1..]);
    }
  }

  lemma {:induction false} StrLeAntisymmetric(a: string, b: string)
    requires StrLe(a, b) && StrLe(b, a)
    ensures a == b
  {
    if a != [] && b != [] {
      StrLeAntisymmetric(a[1..], b[1..]);
      assert a == [a[0]] + a[1..] && b == [b[0]] + b[1..];
    }
  }

  lemma {:induction false} StrLeTransitive(a: string, b: string, c: string)
    requires StrLe(a, b) && StrLe(b, c)
    ensures StrLe(a, c)
  {
    if a != [] && b != [] && c != [] && a[0] == b[0] && b[0] == c[0] {
      StrLeTransitive(a[1..], b[1..], c[1..]);
    }
  }
}

=== FILE: units.dfy ===
/** The gateway client's unit converter: `Client._centify` turns the
    monetary fields of a request into integer strings of minor units, and
    `Client._normalize` turns those of a response back into exact decimals.
    Both walk dicts and lists the same way and differ only in what they do
    to one monetary value, so both are instances of `Walk`. A result of
    `None` stands for the exception Python raises on a value it cannot
    convert. */
module Units {
  import opened Wrappers
  import opened Json
  import opened Text

  /** `Client._convertables`: the keys whose values are amounts of money. */
  const Convertables: set<string> := {"amount", "total", "available", "unitPrice", "totalAmount"}

  /** Python `int(r)` for a number: truncation toward zero. */
  function Trunc(r: real): (i: int)
    ensures r >= 0.0 ==> i as real <= r < i as real + 1.0
    ensures r < 0.0 ==> i as real - 1.0 < r <= i as real
  {
    if r >= 0.0 then r.Floor else -((-r).Floor)
  }

  /** `int(v * 100)` for one monetary value `v`. A string is repeated a
      hundred times before `int` reads it; `None`, lists and dicts raise. */
  function ToCents(v: JVal): Option<int> {
    match v
    case JNum(n) => Some(Trunc(n * 100.0))
    case JBool(b) => Some(if b then 100 else 0)
    case JStr(s) => ParseInt(Repeat(s, 100))
    case _ => None
  }

  /** `Decimal(v) / 100` for one monetary value `v`. */
  function FromCents(v: JVal): Option<real> {
    match v
    case JNum(n) => Some(n / 100.0)
    case JBool(b) => Some(if b then 0.01 else 0.0)
    case JStr(s) => (match ParseDecimal(s) case Some(d) => Some(d / 100.0) case None => None)
    case _ => None
  }

  /** What `_centify` stores under a monetary key: `str(int(v * 100))`. */
  function CentsLeaf(v: JVal): (r: Option<JVal>)
    ensures r.Some? <==> ToCents(v).Some?
    ensures r.Some? ==> r.value.JStr? && ParseInt(r.value.s) == ToCents(v)
  {
    match ToCents(v)
    case Some(c) => ParseIntOfIntToString(c); Some(JStr(IntToString(c)))
    case None => None
  }

  /** What `_normalize` stores under a monetary key: `Decimal(v) / 100`. */
  function UnitsLeaf(v: JVal): (r: Option<JVal>)
    ensures r.Some? <==> FromCents(v).Some?
    ensures v.JNum? ==> r == Some(JNum(v.n / 100.0))
    ensures v.JBool? ==> r == Some(JNum(if v.b then 0.01 else 0.0))
    ensures v.JStr? ==> (r.Some? <==> ParseDecimal(v.s).Some?)
    ensures v.JStr? && r.Some? ==> r.value == JNum(ParseDecimal(v.s).value / 100.0)
    ensures v.JNull? || v.JList? || v.JMap? ==> r.None?
  {
    match FromCents(v)
    case Some(d) => Some(JNum(d))
    case None => None
  }

  /** The walk both converters share: a dict maps every value under a
      monetary key through `leaf` (without looking inside it) and walks
      every other value; a list walks its items; anything else is kept.
      The first failure, in order, is the result. */
  function Walk(v: JVal, leaf: JVal -> Option<JVal>): Option<JVal>
    decreases v, 1
  {
    match v
    case JList(xs) =>
      (match WalkItems(xs, leaf) case Some(ys) => Some(JList(ys)) case None => None)
    case JMap(m) =>
      (match WalkEntries(m, leaf) case Some(n) => Some(JMap(n)) case None => None)
    case _ => Some(v)
  }

  function WalkItems(xs: seq<JVal>, leaf: JVal -> Option<JVal>): Option<seq<JVal>>
    decreases xs, 0
  {
    if xs == [] then Some([])
    else
      match (Walk(xs[0], leaf), WalkItems(xs[1..], leaf))
      case (Some(y), Some(ys)) => Some([y] + ys)
      case _ => None
  }

  function WalkEntries(m: Dict, leaf: JVal -> Option<JVal>): Option<Dict>
    decreases m, 0
  {
    if m == [] then Some([])
    else
      var (k, x) := m[0];
      assert x < m[0];
      var y := if k in Convertables then leaf(x) else Walk(x, leaf);
      match (y, WalkEntries(m[1..], leaf))
      case (Some(y'), Some(n)) => Some([(k, y')] + n)
      case _ => None
  }

  /** One step of the walk over a list. */
  lemma WalkItemsCons(x: JVal, rest: seq<JVal>, leaf: JVal -> Option<JVal>)
    ensures WalkItems([x] + rest, leaf) ==
      match (Walk(x, leaf), WalkItems(rest, leaf))
      case (Some(y), Some(ys)) => Some([y] + ys)
      case _ => None
  {
    assert ([x] + rest)[1..] == rest;
  }

  /** One step of the walk over a dict: a monetary key gets the leaf
      conversion, any other key a walk of its value. */
  lemma WalkEntriesCons(k: string, x: JVal, rest: Dict, leaf: JVal -> Option<JVal>)
    ensures WalkEntries([(k, x)] + rest, leaf) ==
      match ((if k in Convertables then leaf(x) else Walk(x, leaf)), WalkEntries(rest, leaf))
      case (Some(y), Some(n)) => Some([(k, y)] + n)
      case _ => None
  {
    assert ([(k, x)] + rest)[1..] == rest;
  }

  /** Walking two dicts one after the other walks their concatenation. */
  lemma {:induction false} WalkEntriesAppend(m1: Dict, m2: Dict, leaf: JVal -> Option<JVal>)
    ensures WalkEntries(m1 + m2, leaf) ==
      match (WalkEntries(m1, leaf), WalkEntries(m2, leaf))
      case (Some(n1), Some(n2)) => Some(n1 + n2)
      case _ => None
    decreases |m1|
  {
    if m1 == [] {
      assert m1 + m2 == m2;
      if WalkEntries(m2, leaf).Some? {
        assert [] + WalkEntries(m2, leaf).value == WalkEntries(m2, leaf).value;
      }
    } else {
      WalkEntriesAppend(m1[1..], m2, leaf);
      assert (m1 + m2)[0] == m1[0];
      assert (m1 + m2)[1..] == m1[1..] + m2;
      var (k, x) := m1[0];
      var y := if k in Convertables then leaf(x) else Walk(x, leaf);
      if y.Some? && WalkEntries(m1[1..], leaf).Some? && WalkEntries(m2, leaf).Some? {
        var n1, n2 := WalkEntries(m1[1..], leaf).value, WalkEntries(m2, leaf).value;
        assert [(k, y.value)] + (n1 + n2) == ([(k, y.value)] + n1) + n2;
      }
    }
  }

  /** A dict of scalars under non-monetary keys is left as it is. */
  lemma {:induction false} WalkEntriesPlain(m: Dict, leaf: JVal -> Option<JVal>)
    requires forall i :: 0 <= i < |m| ==> m[i].0 !in Convertables && !m[i].1.JList? && !m[i].1.JMap?
    ensures WalkEntries(m, leaf) == Some(m)
  {
    if m != [] {
      WalkEntriesPlain(m[1..], leaf);
      assert m == [m[0]] + m[1..];
      WalkEntriesCons(m[0].0, m[0].1, m[1..], leaf);
    }
  }

  /** The walk of a one-entry dict. */
  lemma WalkEntriesSingle(k: string, x: JVal, leaf: JVal -> Option<JVal>)
    ensures WalkEntries([(k, x)], leaf) ==
      match ConvertEntry(k, x, leaf) case Some(y) => Some([(k, y)]) case None => None
  {
    WalkEntriesCons(k, x, [], leaf);
    assert [(k, x)] == [(k, x)] + [];
    if ConvertEntry(k, x, leaf).Some? {
      assert [(k, ConvertEntry(k, x, leaf).value)] + [] == [(k, ConvertEntry(k, x, leaf).value)];
    }
  }

  /** What the walk does to the value under key `k` of a dict. */
  function ConvertEntry(k: string, x: JVal, leaf: JVal -> Option<JVal>): Option<JVal> {
    if k in Convertables then leaf(x) else Walk(x, leaf)
  }

  /** A walk over a dict succeeds exactly when every entry converts. */
  lemma {:induction false} WalkEntriesSome(m: Dict, leaf: JVal -> Option<JVal>)
    ensures WalkEntries(m, leaf).Some? <==> forall i :: 0 <= i < |m| ==> ConvertEntry(m[i].0, m[i].1, leaf).Some?
  {
    if m != [] {
      WalkEntriesSome(m[1..], leaf);
      assert forall i :: 1 <= i < |m| ==> m[i] == m[1..][i - 1];
    }
  }

  /** Looking a key up in a walked dict finds the conversion of what the
      original held under it. */
  lemma {:induction false} WalkEntriesGet(m: Dict, leaf: JVal -> Option<JVal>, k: string)
    requires WalkEntries(m, leaf).Some?
    ensures Get(WalkEntries(m, leaf).value, k) ==
      match Get(m, k) case None => None case Some(x) => ConvertEntry(k, x, leaf)
  {
    if m != [] {
      WalkEntriesGet(m[1..], leaf, k);
    }
  }

  /** `Client._centify`. */
  function Centify(v: JVal): Option<JVal> {
    Walk(v, CentsLeaf)
  }

  /** `Client._centify` applied to a dict literal. */
  function CentifyDict(d: Dict): Option<Dict> {
    WalkEntries(d, CentsLeaf)
  }

  /** `Client._normalize`. */
  function Normalize(v: JVal): Option<JVal> {
    Walk(v, UnitsLeaf)
  }

  /** The relation a successful walk establishes, stated without computing
      it: `w` has the shape of `v` (same list lengths, same keys in the same
      order, same values off the monetary keys) and every value under a
      monetary key of a dict is the `leaf` image of the original one. */
  ghost predicate Converted(v: JVal, w: JVal, leaf: JVal -> Option<JVal>)
    decreases v, 1
  {
    match v
    case JList(xs) =>
      w.JList? && |w.items| == |xs|
      && forall i :: 0 <= i < |xs| ==> Converted(xs[i], w.items[i], leaf)
    case JMap(m) =>
      w.JMap? && |w.entries| == |m|
      && forall i :: 0 <= i < |m| ==> EntryConverted(m[i], w.entries[i], leaf)
    case _ => w == v
  }

  ghost predicate EntryConverted(e: (string, JVal), f: (string, JVal), leaf: JVal -> Option<JVal>)
    decreases e, 0
  {
    var (k, x) := e;
    assert x < e;
    f.0 == k && if k in Convertables then leaf(x) == Some(f.1) else Converted(x, f.1, leaf)
  }

  /** Every value under a monetary key, at any depth, satisfies `p`. */
  ghost predicate Amounts(v: JVal, p: JVal -> bool)
    decreases v, 1
  {
    match v
    case JList(xs) => forall i :: 0 <= i < |xs| ==> Amounts(xs[i], p)
    case JMap(m) => forall i :: 0 <= i < |m| ==> EntryAmounts(m[i], p)
    case _ => true
  }

  ghost predicate EntryAmounts(e: (string, JVal), p: JVal -> bool)
    decreases e, 0
  {
    var (k, x) := e;
    assert x < e;
    if k in Convertables then p(x) else Amounts(x, p)
  }

  lemma {:induction false} WalkIff(v: JVal, w: JVal, leaf: JVal -> Option<JVal>)
    ensures Walk(v, leaf) == Some(w) <==> Converted(v, w, leaf)
    decreases v, 1
  {
    match v
    case JList(xs) =>
      if w.JList? {
        WalkItemsIff(xs, w.items, leaf);
      }
    case JMap(m) =>
      if w.JMap? {
        WalkEntriesIff(m, w.entries, leaf);
      }
    case _ =>
  }

  lemma {:induction false} WalkItemsIff(xs: seq<JVal>, ys: seq<JVal>, leaf: JVal -> Option<JVal>)
    ensures WalkItems(xs, leaf) == Some(ys)
        <==> (|ys| == |xs| && forall i :: 0 <= i < |xs| ==> Converted(xs[i], ys[i], leaf))
    decreases xs, 0
  {
    if xs != [] && ys != [] {
      WalkIff(xs[0], ys[0], leaf);
      WalkItemsIff(xs[1..], ys[1..], leaf);
      assert ys == [ys[0]] + ys[1..];
      if |ys| == |xs| && forall i :: 0 <= i < |xs| ==> Converted(xs[i], ys[i], leaf) {
        assert forall i :: 0 <= i < |xs| - 1 ==> Converted(xs[1..][i], ys[1..][i], leaf) by {
          forall i | 0 <= i < |xs| - 1 ensures Converted(xs[1..][i], ys[1..][i], leaf) {
            assert xs[1..][i] == xs[i + 1] && ys[1..][i] == ys[i + 1];
          }
        }
      }
      if WalkItems(xs, leaf) == Some(ys) {
        forall i | 0 <= i < |xs| ensures Converted(xs[i], ys[i], leaf) {
          if i > 0 {
            assert xs[1..][i - 1] == xs[i] && ys[1..][i - 1] == ys[i];
          }
        }
      }
    }
  }

  lemma {:induction false} WalkEntriesIff(m: Dict, n: Dict, leaf: JVal -> Option<JVal>)
    ensures WalkEntries(m, leaf) == Some(n)
        <==> (|n| == |m| && forall i :: 0 <= i < |m| ==> EntryConverted(m[i], n[i], leaf))
    decreases m, 0
  {
    if m != [] && n != [] {
      var (k, x) := m[0];
      assert x < m[0];
      if k !in Convertables {
        WalkIff(x, n[0].1, leaf);
      }
      WalkEntriesIff(m[1..], n[1..], leaf);
      assert n == [n[0]] + n[1..];
      assert n[0] == (n[0].0, n[0].1);
      if |n| == |m| && forall i :: 0 <= i < |m| ==> EntryConverted(m[i], n[i], leaf) {
        assert EntryConverted(m[0], n[0], leaf);
        forall i | 0 <= i < |m| - 1 ensures EntryConverted(m[1..][i], n[1..][i], leaf) {
          assert m[1..][i] == m[i + 1] && n[1..][i] == n[i + 1];
        }
      }
      if WalkEntries(m, leaf) == Some(n) {
        forall i | 0 <= i < |m| ensures EntryConverted(m[i], n[i], leaf) {
          if i > 0 {
            assert m[1..][i - 1] == m[i] && n[1..][i - 1] == n[i];
          }
        }
      }
    }
  }

  /** `_centify(v)` succeeds with `w` exactly when `w` is `v` with every
      monetary value replaced by `str(int(x * 100))` and nothing else
      changed: keys, order, list lengths and non-monetary scalars are kept,
      and a monetary value is converted as a whole, never walked into. */
  lemma CentifyMeaning(v: JVal, w: JVal)
    ensures Centify(v) == Some(w) <==> Converted(v, w, CentsLeaf)
  {
    WalkIff(v, w, CentsLeaf);
  }

  /** `_normalize(v)` succeeds with `w` exactly when `w` is `v` with every
      monetary value `x` replaced by the exact `Decimal(x) / 100`. */
  lemma NormalizeMeaning(v: JVal, w: JVal)
    ensures Normalize(v) == Some(w) <==> Converted(v, w, UnitsLeaf)
  {
    WalkIff(v, w, UnitsLeaf);
  }

  /** Two walks whose leaf functions agree on every monetary value of `v`
      give the same result. */
  lemma {:induction false} WalkAgree(v: JVal, f: JVal -> Option<JVal>, g: JVal -> Option<JVal>, p: JVal -> bool)
    requires Amounts(v, p)
    requires forall x :: p(x) ==> f(x) == g(x)
    ensures Walk(v, f) == Walk(v, g)
    decreases v, 1
  {
    match v
    case JList(xs) => WalkItemsAgree(xs, f, g, p);
    case JMap(m) => WalkEntriesAgree(m, f, g, p);
    case _ =>
  }

  lemma {:induction false} WalkItemsAgree(xs: seq<JVal>, f: JVal -> Option<JVal>, g: JVal -> Option<JVal>, p: JVal -> bool)
    requires forall i :: 0 <= i < |xs| ==> Amounts(xs[i], p)
    requires forall x :: p(x) ==> f(x) == g(x)
    ensures WalkItems(xs, f) == WalkItems(xs, g)
    decreases xs, 0
  {
    if xs != [] {
      WalkAgree(xs[0], f, g, p);
      WalkItemsAgree(xs[1..], f, g, p);
    }
  }

  lemma {:induction false} WalkEntriesAgree(m: Dict, f: JVal -> Option<JVal>, g: JVal -> Option<JVal>, p: JVal -> bool)
    requires forall i :: 0 <= i < |m| ==> EntryAmounts(m[i], p)
    requires forall x :: p(x) ==> f(x) == g(x)
    ensures WalkEntries(m, f) == WalkEntries(m, g)
    decreases m, 0
  {
    if m != [] {
      var (k, x) := m[0];
      assert x < m[0];
      assert EntryAmounts(m[0], p);
      if k !in Convertables {
        WalkAgree(x, f, g, p);
      }
      WalkEntriesAgree(m[1..], f, g, p);
    }
  }

  /** Running `f` and then walking its result with `g` is one walk with the
      leaf function "`f`, then `g`". */
  lemma {:induction false} WalkThen(v: JVal, f: JVal -> Option<JVal>, g: JVal -> Option<JVal>)
    requires Walk(v, f).Some?
    ensures Walk(Walk(v, f).value, g) == Walk(v, Then(f, g))
    decreases v, 1
  {
    match v
    case JList(xs) => WalkItemsThen(xs, f, g);
    case JMap(m) => WalkEntriesThen(m, f, g);
    case _ =>
  }

  lemma {:induction false} WalkItemsThen(xs: seq<JVal>, f: JVal -> Option<JVal>, g: JVal -> Option<JVal>)
    requires WalkItems(xs, f).Some?
    ensures WalkItems(WalkItems(xs, f).value, g) == WalkItems(xs, Then(f, g))
    decreases xs, 0
  {
    if xs != [] {
      WalkThen(xs[0], f, g);
      WalkItemsThen(xs[1..], f, g);
      var ys := WalkItems(xs, f).value;
      assert ys[0] == Walk(xs[0], f).value && ys[1..] == WalkItems(xs[1..], f).value;
    }
  }

  lemma {:induction false} WalkEntriesThen(m: Dict, f: JVal -> Option<JVal>, g: JVal -> Option<JVal>)
    requires WalkEntries(m, f).Some?
    ensures WalkEntries(WalkEntries(m, f).value, g) == WalkEntries(m, Then(f, g))
    decreases m, 0
  {
    if m != [] {
      var (k, x) := m[0];
      assert x < m[0];
      if k !in Convertables {
        WalkThen(x, f, g);
      }
      WalkEntriesThen(m[1..], f, g);
      var n := WalkEntries(m, f).value;
      assert n[0].0 == k && n[1..] == WalkEntries(m[1..], f).value;
    }
  }

  function Then(f: JVal -> Option<JVal>, g: JVal -> Option<JVal>): JVal -> Option<JVal> {
    x => match f(x) case Some(y) => g(y) case None => None
  }

  predicate IsNumber(v: JVal) { v.JNum? }

  /** A number with at most two fractional digits. */
  predicate IsCentAmount(v: JVal) { v.JNum? && (v.n * 100.0).Floor as real == v.n * 100.0 }

  /** A monetary number cut to whole cents, toward zero. */
  function TruncLeaf(v: JVal): Option<JVal> {
    match v
    case JNum(n) => Some(JNum(Trunc(n * 100.0) as real / 100.0))
    case _ => None
  }

  /** One monetary number through `_centify` and back through `_normalize`
      loses exactly the digits below a cent. */
  lemma LeafRoundTrip(n: real)
    ensures Then(CentsLeaf, UnitsLeaf)(JNum(n)) == TruncLeaf(JNum(n))
    ensures IsCentAmount(JNum(n)) ==> TruncLeaf(JNum(n)) == Some(JNum(n))
  {
    var c := Trunc(n * 100.0);
    assert ToCents(JNum(n)) == Some(c);
    assert CentsLeaf(JNum(n)) == Some(JStr(IntToString(c)));
    ParseDecimalOfIntToString(c);
    assert FromCents(JStr(IntToString(c))) == Some(c as real / 100.0);
    assert UnitsLeaf(JStr(IntToString(c))) == Some(JNum(c as real / 100.0));
    if IsCentAmount(JNum(n)) {
      CentTrunc(n);
    }
  }

  lemma CentTrunc(n: real)
    requires IsCentAmount(JNum(n))
    ensures Trunc(n * 100.0) as real / 100.0 == n
  {
    var m := n * 100.0;
    var c := Trunc(m);
    assert m.Floor as real == m;
    if m < 0.0 {
      var k := m.Floor;
      assert (-k) as real == -m;
      assert (-m).Floor == -k;
    }
    assert c as real == m;
    assert m / 100.0 == n;
  }

  /** `_normalize(_centify(v))`: when every monetary value is a number, the
      walk succeeds and every amount comes back truncated toward zero to
      whole cents, everything else unchanged. */
  lemma CentifyThenNormalize(v: JVal)
    requires Amounts(v, IsNumber)
    ensures Centify(v).Some?
    ensures Normalize(Centify(v).value) == Walk(v, TruncLeaf)
    ensures Walk(v, TruncLeaf).Some?
  {
    WalkDefined(v, CentsLeaf, IsNumber);
    forall x | IsNumber(x) ensures Then(CentsLeaf, UnitsLeaf)(x) == TruncLeaf(x) {
      LeafRoundTrip(x.n);
    }
    WalkThen(v, CentsLeaf, UnitsLeaf);
    WalkAgree(v, Then(CentsLeaf, UnitsLeaf), TruncLeaf, IsNumber);
    WalkDefined(v, TruncLeaf, IsNumber);
  }

  /** A walk whose leaf function succeeds on every monetary value succeeds. */
  lemma {:induction false} WalkDefined(v: JVal, f: JVal -> Option<JVal>, p: JVal -> bool)
    requires Amounts(v, p)
    requires forall x :: p(x) ==> f(x).Some?
    ensures Walk(v, f).Some?
    decreases v, 1
  {
    match v
    case JList(xs) => WalkItemsDefined(xs, f, p);
    case JMap(m) => WalkEntriesDefined(m, f, p);
    case _ =>
  }

  lemma {:induction false} WalkItemsDefined(xs: seq<JVal>, f: JVal -> Option<JVal>, p: JVal -> bool)
    requires forall i :: 0 <= i < |xs| ==> Amounts(xs[i], p)
    requires forall x :: p(x) ==> f(x).Some?
    ensures WalkItems(xs, f).Some?
    decreases xs, 0
  {
    if xs != [] {
      WalkDefined(xs[0], f, p);
      WalkItemsDefined(xs[1..], f, p);
    }
  }

  lemma {:induction false} WalkEntriesDefined(m: Dict, f: JVal -> Option<JVal>, p: JVal -> bool)
    requires forall i :: 0 <= i < |m| ==> EntryAmounts(m[i], p)
    requires forall x :: p(x) ==> f(x).Some?
    ensures WalkEntries(m, f).Some?
    decreases m, 0
  {
    if m != [] {
      var (k, x) := m[0];
      assert x < m[0];
      assert EntryAmounts(m[0], p);
      if k !in Convertables {
        WalkDefined(x, f, p);
      }
      WalkEntriesDefined(m[1..], f, p);
    }
  }

  /** The round-trip law: when every monetary value is a number with at most
      two fractional digits, `_normalize(_centify(v)) == v`. */
  lemma RoundTrip(v: JVal)
    requires Amounts(v, IsCentAmount)
    ensures Centify(v).Some?
    ensures Normalize(Centify(v).value) == Some(v)
  {
    AmountsWeaken(v, IsCentAmount, IsNumber);
    CentifyThenNormalize(v);
    forall x | IsCentAmount(x) ensures TruncLeaf(x) == Some(x) {
      LeafRoundTrip(x.n);
    }
    WalkAgree(v, TruncLeaf, x => Some(x), IsCentAmount);
    WalkIdentity(v);
  }

  lemma {:induction false} AmountsWeaken(v: JVal, p: JVal -> bool, q: JVal -> bool)
    requires Amounts(v, p)
    requires forall x :: p(x) ==> q(x)
    ensures Amounts(v, q)
    decreases v, 1
  {
    match v
    case JList(xs) =>
      forall i | 0 <= i < |xs| ensures Amounts(xs[i], q) {
        AmountsWeaken(xs[i], p, q);
      }
    case JMap(m) =>
      forall i | 0 <= i < |m| ensures EntryAmounts(m[i], q) {
        var (k, x) := m[i];
        assert x < m[i];
        assert EntryAmounts(m[i], p);
        if k !in Convertables {
          AmountsWeaken(x, p, q);
        }
      }
    case _ =>
  }

  /** Walking with the identity leaf gives the value back. */
  lemma {:induction false} WalkIdentity(v: JVal)
    ensures Walk(v, x => Some(x)) == Some(v)
    decreases v, 1
  {
    match v
    case JList(xs) => WalkItemsIdentity(xs);
    case JMap(m) => WalkEntriesIdentity(m);
    case _ =>
  }

  lemma {:induction false} WalkItemsIdentity(xs: seq<JVal>)
    ensures WalkItems(xs, x => Some(x)) == Some(xs)
    decreases xs, 0
  {
    if xs != [] {
      WalkIdentity(xs[0]);
      WalkItemsIdentity(xs[1..]);
      assert xs == [xs[0]] + xs[1..];
    }
  }

  lemma {:induction false} WalkEntriesIdentity(m: Dict)
    ensures WalkEntries(m, x => Some(x)) == Some(m)
    decreases m, 0
  {
    if m != [] {
      var (k, x) := m[0];
      assert x < m[0];
      if k !in Convertables {
        WalkIdentity(x);
      }
      WalkEntriesIdentity(m[1..]);
      assert m == [(k, x)] + m[1..];
    }
  }
}

=== FILE: wrappers.dfy ===
/** Option and Result, used for Python's None and for raised exceptions. */
module Wrappers {

  datatype Option<+T> = None | Some(value: T) {
    function GetOr(default: T): T {
      match this
      case Some(v) => v
      case None => default
    }
  }

  datatype Result<+T, +E> = Success(value: T) | Failure(error: E)
}
